=== FILE: README.md ===
# Quest item requirements, modelled in Dafny

QuestItemRequirementsDisplay is a game mod. When the player looks at an item, the mod answers five questions:

- which unfinished quests ask for the item to be prepared;
- which quest tasks ask for it to be submitted;
- which quest tasks ask for it to be used;
- which locked perks cost it;
- which unplaced buildings cost it.

It also counts how many of the item the player already holds, and it labels its output in the game's language.

This project models that core as pure functions over an immutable game-state record. The modules are:

- `Domain`: the host objects. These are quests and their tasks, perks and perk trees, buildings, cost entries, items with slots, and the game state.
  - Every host reference the code checks for null is an `Option`.
  - `NonNull` keeps the present entries of a list, in order.
- `QuestUniverse`: the quest universe the requirement queries run over.
  - It keeps every non-null quest of the collection, in order.
  - It drops unimplemented quests, whose level gate is 999 or more.
  - It drops every quest that descends from an unimplemented quest through the quest relation table.
  - It drops quests with a testing name, meaning one that starts and ends with `*`.
  - The recursive exclusion of children is modelled as the method `ExcludeChildren`, which expands each newly marked id exactly once. `ExpandAll` and `ExcludeDescendants` run it from every unimplemented quest; their result is proved to be exactly the set of ids reachable from those quests.
- `Requirements`: the five computations behind one cached snapshot.
  - Prepared quests.
  - Submit and use requirements. Each runs an active pass, then a pass over dormant quests, meaning quests neither finished nor active.
  - Perk requirements, with the tree denylist `Blueprint`, `PerkTree_Farming`.
  - Building requirements, with the excluded prerequisite `PetHouse`.
  - As in the code, the dormant pass does not look at a task's finished flag.
- `RequirementCache`: the per-item snapshot cache.
  - The cache is a map plus a dirty flag.
  - `Ensure` clears a dirty cache and builds missing entries.
  - Every notification handler invalidates the cache. The level-ready handler also registers the per-perk listeners of the new level first.
  - The public queries return nothing for a null item, and otherwise the snapshot of the current state. This holds as long as every state change arrives with a notification.
- `AmountPattern`: the older submit query reads the amount out of a task description with the regular expression `(\d+)[^\d]+\d+\s?$`. This module is a bespoke matcher for that one pattern. It is proved equal to a declarative reading of the pattern: the leftmost start wins, and `"err"` is returned when nothing matches.
- `ItemAmount`: the stock count over the character, the pet and the player storage.
  - Each inventory counts its items, plus the contents of its items' slots, one level deep.
  - When the storage object is gone, a snapshot taken as it was destroyed stands in for it.
- `BallbanUtility`: the two earlier versions of the queries.
  - They have no cache, only the testing-name filter on quests, no perk or building denylists, and the regular-expression amount.
  - Their stock count adds the slot contents in a separate pass.
  - Both earlier perk and quest queries are the same computation. One member models each pair.
  - Lemmas relate the later queries to these. The later perk and building lists are order-preserving sub-lists of the earlier ones. The later quest universe is a sub-list of the earlier one. The two stock counts agree while the storage exists.
- `LocalizedText`: the string table keyed `<key>_<suffix>`, and the lookup from the current language to a suffix.

Host singletons are inputs to the model, and so is the current language. These are the quest manager, the perk tree manager, the building collection, the quest relation table, the player storage and the localization manager.

A description that carries a single number, such as one ending in `... 7`, yields `"err"`: the pattern needs two digit runs with non-digits between them. `AmountPattern.ExampleSingleNumber` shows the case.

## Model

| member | source | states |
|---|---|---|
| Domain.NonNull | src/GetRequiredItemAmount.cs:35-37 | Keeps exactly the present entries of the collection, and never more entries than the collection has. |
| Domain.NonNullAppend | src/GetRequiredItemAmount.cs:35-37 | Dropping nulls from a concatenation gives the concatenation of the two results, so the kept entries stay in collection order. |
| Domain.NonNullSingle | src/GetRequiredItemAmount.cs:35-37 | A present entry is kept and a null one is dropped. |
| Domain.TestingNameAffixes | src/GetRequiredItemAmount.cs:105-108 | A name is a testing name exactly when "*" is a prefix of it and "*" is a suffix of it; a lone "*" counts. |
| QuestUniverse.ParentIds | src/GetRequiredItemAmount.cs:92-98 | Without a relation table a quest has no parents; otherwise its parents are exactly the ids the table lists for it. |
| QuestUniverse.AddChild | src/GetRequiredItemAmount.cs:51-56 | After recording a child under a list of parents, `c` is a child of `p` exactly when it was before or `c` is the new child and `p` one of the parents. |
| QuestUniverse.ChildrenMap | src/GetRequiredItemAmount.cs:40-57 | `c` is recorded as a child of `p` exactly when some quest with id `c` lists `p` among its parents in the relation table. |
| QuestUniverse.MarkUnimplemented | src/GetRequiredItemAmount.cs:42-49 | The first pass marks exactly the ids of quests whose level gate is at or above 999, and queues each of them once. |
| QuestUniverse.ExcludeChildren | src/GetRequiredItemAmount.cs:60-69 | The recursion only grows the excluded set, which stays inside the known ids. Every newly excluded id has a chain of child edges back to a seed. Every child of the starting quest is excluded, as is every child of every newly excluded id, and each newly excluded id is expanded exactly once. |
| QuestUniverse.ExpandAll | src/GetRequiredItemAmount.cs:71-75 | After expanding every seed, an id is excluded exactly when a chain of child edges leads to it from a seed. The ids expanded beyond the seeds are each expanded exactly once. |
| QuestUniverse.ExcludeDescendants | src/GetRequiredItemAmount.cs:41-75 | The excluded set is exactly the unimplemented quests and everything reachable from them. Every other excluded id is expanded exactly once. |
| QuestUniverse.KeepQuests | src/GetRequiredItemAmount.cs:77-82 | The kept quests are an order-preserving sub-list: exactly the non-excluded, non-testing quests. |
| QuestUniverse.InitTotalQuests | src/GetRequiredItemAmount.cs:32-85 | The quest universe is an order-preserving sub-list of the non-null collection. A quest is in it exactly when it has a non-testing name and is neither unimplemented nor a descendant of an unimplemented quest. |
| Requirements.ComputePrepared | src/GetRequiredItemAmount.cs:360-369 | The prepared quests are an order-preserving sub-list of the universe: exactly the unfinished quests whose prepare requirement is the item. |
| Requirements.Remaining | src/GetRequiredItemAmount.cs:390 | The remaining amount is never negative, and it is either the shortfall `required - progress` or zero. |
| Requirements.ActiveTaskRecords | src/GetRequiredItemAmount.cs:385-398 | A record is listed exactly when it carries an unfinished task of the quest, of the kind and item, with a positive remainder; it carries the task, the quest and the remainder. How many records and in what order is fixed by the append and single-task lemmas below. |
| Requirements.DormantTaskRecords | src/GetRequiredItemAmount.cs:412-423 | A record is listed exactly when it belongs to a task of the quest of the kind and item with a positive required amount; it has no task and carries the full amount. How many records and in what order is fixed by the append and single-task lemmas below. |
| Requirements.ActiveTaskRecordsAppend | src/GetRequiredItemAmount.cs:385-398 | The records of a concatenated task list are the records of the first part followed by those of the second. |
| Requirements.ActiveTaskRecordsSingle | src/GetRequiredItemAmount.cs:385-398 | A single task yields exactly one record, its own, when it matches, and none otherwise. |
| Requirements.DormantTaskRecordsAppend | src/GetRequiredItemAmount.cs:412-423 | The records of a concatenated task list are the records of the first part followed by those of the second. |
| Requirements.DormantTaskRecordsSingle | src/GetRequiredItemAmount.cs:412-423 | A single task yields exactly one record, its own, when it matches, and none otherwise; two tasks asking for the same amount therefore give two records. |
| Requirements.ActivePass | src/GetRequiredItemAmount.cs:378-399 | A record is listed exactly when it is the record of a matching task of a present active quest with a task list, and every record carries its task. Count and order follow from the two lemmas below. |
| Requirements.ActivePassAppend | src/GetRequiredItemAmount.cs:378-399 | The pass over a concatenated list of active quests is the pass over the first part followed by the pass over the second. |
| Requirements.ActivePassSingle | src/GetRequiredItemAmount.cs:378-399 | A single active quest yields the records of its task list, in task order; a null quest or one without a task list yields none. |
| Requirements.DormantPass | src/GetRequiredItemAmount.cs:401-424 | A record is listed exactly when it is the record of a matching task of a universe quest that is neither finished nor active. Every record is task-less with a positive amount. Count and order follow from the two lemmas below. |
| Requirements.DormantPassAppend | src/GetRequiredItemAmount.cs:401-424 | The pass over a concatenated quest list is the pass over the first part followed by the pass over the second. |
| Requirements.DormantPassSingle | src/GetRequiredItemAmount.cs:401-424 | A single quest yields the records of its task list, in task order, unless it is finished, active or has no task list. |
| Requirements.ActiveEntriesAreActive | src/GetRequiredItemAmount.cs:378-379 | Every active record belongs to a quest in the active-id set. |
| Requirements.PassesConcat | src/GetRequiredItemAmount.cs:373-426 | In the concatenation of the two passes, every active record comes before every dormant one, and no quest appears in both. |
| Requirements.ComputeTaskRequirements | src/GetRequiredItemAmount.cs:371-486 | Covers both the submit and the use computation. A record is listed exactly when it is the record of a matching task of a present active quest, or of a matching task of a universe quest that is neither finished nor active. Every remainder is positive. Active records precede dormant ones, and the two passes share no quest. Count and order are stated by `TaskRequirementsPasses` with the pass lemmas. |
| Requirements.TaskRequirementsPasses | src/GetRequiredItemAmount.cs:373-426 | The list is the active pass over the active quests followed by the dormant pass over the universe, so one record per matching task, in quest order and then task order. |
| Requirements.EqualDormantTasksBothListed | src/GetRequiredItemAmount.cs:412-423 | A dormant quest with two different submit tasks of 5 each gives two records of 5, in task order. |
| Requirements.MatchingAmounts | src/GetRequiredItemAmount.cs:509-518 | The amounts taken from a cost list are exactly those of its entries for the item. |
| Requirements.MatchingAmountsAppend | src/GetRequiredItemAmount.cs:509-518 | Filtering a concatenated cost list is the concatenation of the filtered parts. |
| Requirements.MatchingAmountsSingle | src/GetRequiredItemAmount.cs:509-518 | A single cost entry yields its amount exactly when it is for the item. |
| Requirements.PerkRecordsOf | src/GetRequiredItemAmount.cs:512-517 | There are as many records as amounts. The record at each position carries the amount at that position, the tree name and the perk name. |
| Requirements.TreePerkRecords | src/GetRequiredItemAmount.cs:499-519 | A tree's records come exactly from the perks that are present, neither unlocked nor unlocking, and have a cost list. Each such perk contributes one record per cost entry of the item. |
| Requirements.TreePerkRecordsAppend | src/GetRequiredItemAmount.cs:499-519 | The records of a concatenated perk list are the records of the first part followed by those of the second. |
| Requirements.TreePerkRecordsSingle | src/GetRequiredItemAmount.cs:499-519 | A candidate perk yields one record per cost entry of the item, in cost-list order. A null or non-candidate perk yields none. |
| Requirements.PerkPass | src/GetRequiredItemAmount.cs:494-520 | A record is listed exactly when a present tree outside the denylist yields it. |
| Requirements.PerkPassAppend | src/GetRequiredItemAmount.cs:494-520 | The records of a concatenated tree list are the records of the first part followed by those of the second. |
| Requirements.PerkPassSingle | src/GetRequiredItemAmount.cs:494-520 | A present tree outside the denylist yields its perk records. A null or denylisted tree yields none. |
| Requirements.ComputePerks | src/GetRequiredItemAmount.cs:488-523 | No perk manager gives nothing. Otherwise the list is exactly the records of the non-denylisted trees. |
| Requirements.BuildingRecordsOf | src/GetRequiredItemAmount.cs:560-564 | There are as many records as amounts. The record at each position carries the amount at that position and the building name. |
| Requirements.BuildingPass | src/GetRequiredItemAmount.cs:536-566 | A record is listed exactly when some building yields it. The building must be valid, unplaced and non-testing, must not list itself or `PetHouse` among its prerequisites, and must have a cost list with an entry of the item. |
| Requirements.BuildingPassAppend | src/GetRequiredItemAmount.cs:536-566 | The records of a concatenated building list are the records of the first part followed by those of the second. |
| Requirements.BuildingPassSingle | src/GetRequiredItemAmount.cs:536-566 | A candidate building yields one record per cost entry of the item, in cost-list order. Any other building yields none. |
| Requirements.ComputeBuildings | src/GetRequiredItemAmount.cs:525-569 | No building collection gives nothing. Otherwise the list is exactly the building pass. |
| Requirements.BuildSnapshot | src/GetRequiredItemAmount.cs:348-358 | The prepared list is a sub-list of the universe. Every submit and use record has a positive amount, and a record that carries a task carries a task of its own kind. A missing perk manager or building collection gives an empty list. |
| RequirementCache.Ensure | src/GetRequiredItemAmount.cs:247-265 | A non-positive id changes nothing. Otherwise the cache ends clean and holds the id. A dirty cache is emptied first. A clean cache keeps every entry it had and rebuilds none. An up-to-date cache stays up to date, and the entry is the snapshot of the current state. |
| RequirementCache.Lookup | src/GetRequiredItemAmount.cs:267-300 | A missing id gives empty lists. A present id gives a copy of its entry. |
| RequirementCache.Invalidate | src/GetRequiredItemAmount.cs:618-621 | Only the dirty flag changes. A dirty cache is up to date for every state. |
| RequirementCache.InvalidateIdempotent | src/GetRequiredItemAmount.cs:618-621 | Invalidating twice is the same as invalidating once. |
| RequirementCache.Handle | src/GetRequiredItemAmount.cs:623-662 | Every notification invalidates the cache. Only the level-ready notification also registers the per-perk listeners. |
| RequirementCache.RebuildAfterNotification | src/GetRequiredItemAmount.cs:254-264 | After any notification, the next lookup of a positive id leaves exactly one entry: the snapshot of the state at that moment. |
| RequirementCache.Mutate | src/GetRequiredItemAmount.cs:623-662 | A state change delivered with its notification keeps the cache coherent with the new state. |
| RequirementCache.EnsureItemRequirements | src/GetRequiredItemAmount.cs:214-218 | A non-positive id changes nothing. Otherwise the cache ends clean and holds the id, and the state and listener registration are unchanged. Coherence is kept, and on a coherent index the warmed entry is the snapshot of the current state. |
| RequirementCache.Query | src/GetRequiredItemAmount.cs:115-120 | A null item gives empty lists and changes nothing. On a coherent index, a positive id gives the snapshot of the current state. |
| RequirementCache.QueryStable | src/GetRequiredItemAmount.cs:260-264 | A second identical query returns the same answer and leaves the cache as the first left it. |
| RequirementCache.GetRequiredQuests | src/GetRequiredItemAmount.cs:115-120 | A null item gives nothing. On a coherent index the answer is the prepared-quest computation over the current state. |
| RequirementCache.GetRequiredSubmitItems | src/GetRequiredItemAmount.cs:177-182 | A null item gives nothing. On a coherent index the answer is the submit computation over the current state. |
| RequirementCache.GetRequiredUseItems | src/GetRequiredItemAmount.cs:207-212 | A null item gives nothing. On a coherent index the answer is the use computation over the current state. |
| RequirementCache.GetRequiredPerkEntries | src/GetRequiredItemAmount.cs:165-170 | A null item gives nothing. On a coherent index the answer is the perk computation over the current state. |
| RequirementCache.GetRequiredBuildings | src/GetRequiredItemAmount.cs:195-200 | A null item gives nothing. On a coherent index the answer is the building computation over the current state. |
| RequirementCache.InitialCoherent | src/GetRequiredItemAmount.cs:241-242 | The initial cache starts dirty, so it is coherent with any state. |
| RequirementCache.SilentChangeBreaksCoherence | src/GetRequiredItemAmount.cs:254-264 | A state change that arrives without a notification leaves a clean cache answering from the old state. |
| AmountPattern.DigitRunEnd | src/Utility.cs:153 | `(\d+)` and the final `\d+` take the whole maximal run of digits. |
| AmountPattern.NonDigitRunEnd | src/Utility.cs:153 | `[^\d]+` takes the whole maximal run of non-digits. |
| AmountPattern.ShapeUnique | src/Utility.cs:153 | From a given start there is at most one way to match the pattern. |
| AmountPattern.MatchAtSound | src/Utility.cs:153 | The matcher succeeds at a start exactly when the pattern matches there, and it returns the first group. |
| AmountPattern.FirstMatch | src/Utility.cs:153 | Returns the leftmost start that matches, or none when no start does. |
| AmountPattern.ParseAmount | src/Utility.cs:153-154 | The amount is `"err"` exactly when the pattern matches nowhere in the description. |
| AmountPattern.ParseAmountSpec | src/Utility.cs:153-154 | The amount is the first group at the leftmost start where the pattern matches. |
| AmountPattern.ExampleFraction | src/Utility.cs:153-154 | `"x 3/10"` yields `"3"`. |
| AmountPattern.ExampleTrailingSpace | src/Utility.cs:153-154 | `"Submit 2/10 "` yields `"2"`, because one trailing whitespace character is allowed. |
| AmountPattern.ExampleSingleNumber | src/Utility.cs:153-154 | `"Bring 7"` yields `"err"`. |
| ItemAmount.SumStacks | src/GetItemAmount.cs:109-110 | With no item of the type the sum is zero. With non-negative stacks it is non-negative. Together with SumStacksAppend and SumStacksSingle, it is the sum of StackCount over exactly the items of the type. |
| ItemAmount.SumStacksAppend | src/GetItemAmount.cs:109-110 | The sum over a concatenation is the sum of the parts. |
| ItemAmount.SumStacksSingle | src/GetItemAmount.cs:109-110 | One item adds its StackCount when it is of the type, and nothing otherwise. |
| ItemAmount.Contents | src/GetItemAmount.cs:124-125 | An item's contents are exactly the present contents of its slots. |
| ItemAmount.SlotContents | src/GetItemAmount.cs:123-125 | Exactly the contents of the listed items' slots, one level deep. With SlotContentsAppend and SlotContentsSingle, each item's contents appear once, in item order. |
| ItemAmount.SlotContentsAppend | src/GetItemAmount.cs:123-125 | The slot contents of a concatenated list are those of the first part followed by those of the second. |
| ItemAmount.SlotContentsSingle | src/GetItemAmount.cs:123-125 | One item contributes exactly its own non-null slot contents, once each, in slot order. |
| ItemAmount.FromItemsSlots | src/GetItemAmount.cs:121-129 | With no slot content of the type the slot count is zero; with non-negative stacks it is non-negative. With FromItemsSlotsAppend and FromItemsSlotsSingle, it is the sum over items of the StackCount of their slot contents of the type. |
| ItemAmount.FromItemsSlotsAppend | src/GetItemAmount.cs:121-129 | The slot count of a concatenated list is the sum of the two slot counts. |
| ItemAmount.FromItemsSlotsSingle | src/GetItemAmount.cs:121-129 | One item's slot count is the StackCount sum of its own slot contents of the type. |
| ItemAmount.FromList | src/GetItemAmount.cs:107-113 | With no item or slot content of the type the count is zero; with non-negative stacks it is non-negative. With FromListAppend and FromListSingle, it is, per item, its own StackCount when of the type plus its slot contents of the type. |
| ItemAmount.FromListSingle | src/GetItemAmount.cs:107-113 | One item counts its own StackCount when it is of the type, plus the StackCount sum of its slot contents of the type. |
| ItemAmount.FromInventory | src/GetItemAmount.cs:101-106 | A null inventory counts zero; a present one counts as the list of its present items. |
| ItemAmount.FromListAppend | src/GetItemAmount.cs:107-113 | Counting a concatenated list gives the sum of the two counts. |
| ItemAmount.ClonePlayerStorage | src/GetItemAmount.cs:25-37 | The snapshot is unchanged without a live storage or its content list. Otherwise it holds exactly the storage's present items and their slot contents. |
| ItemAmount.CloneCount | src/GetItemAmount.cs:25-37 | Once the storage is gone, the snapshot counts the live count, plus the slot contents again, plus the contents of those contents' slots. |
| ItemAmount.CloneCountExample | src/GetItemAmount.cs:81-93 | One bag holding three of an item counts 3 while the storage is live, and 6 from the snapshot. |
| ItemAmount.InPlayerStorage | src/GetItemAmount.cs:81-93 | A live storage is counted from its own items; only a storage that is gone is counted from the snapshot. |
| ItemAmount.StorageIgnoresSnapshot | src/GetItemAmount.cs:81-93 | While the storage exists, the snapshot has no effect on its count. |
| ItemAmount.GetTotalItemAmount | src/GetItemAmount.cs:44-50 | The total is the count of the character's, the pet's and the storage's items taken as one list, with the snapshot standing in for a storage that is gone. |
| BallbanUtility.InitTotalQuests | src/Utility.cs:21-31 | The earlier universe is an order-preserving sub-list of the collection: exactly the non-testing quests. |
| BallbanUtility.KeptWithinTestingFilter | src/Utility.cs:21-31 | The later universe's filter keeps a sub-list of the earlier universe. |
| BallbanUtility.ComputePreparedAppend | src/Utility.cs:112-131 | The prepared-quest filter distributes over concatenation. |
| BallbanUtility.GetRequiredQuests | src/Utility.cs:112-131 | The loop returns the same list as the cached prepared-quest computation over the same universe. |
| BallbanUtility.PreparedMonotone | src/Utility.cs:112-131 | Filtering a sub-list of quests gives a sub-list of the prepared quests. |
| BallbanUtility.UnfilteredPreparedQuests | Utility.cs:53-72 | Over the unfiltered collection, the prepared quests are exactly the unfinished quests for the item. The filtered version's list is a sub-list of them. |
| BallbanUtility.SubmitEntries | src/Utility.cs:145-156 | One quest's entries are exactly its unfinished submit tasks of the item, each paired with the amount read from its description. |
| BallbanUtility.SubmitEntriesAppend | src/Utility.cs:145-156 | The entries of a concatenated task list are those of the first part followed by those of the second. |
| BallbanUtility.GetRequiredSubmitItems | src/Utility.cs:138-161 | An entry is listed exactly when it is an unfinished submit task of the item, in an unfinished quest with a task list, paired with its parsed amount. |
| BallbanUtility.SubmitItemsAppend | src/Utility.cs:142-157 | The submit query distributes over concatenation of the universe. |
| BallbanUtility.AppendTaskEntries | Utility.cs:90-105 | The inner loop defaults the amount to `"err"` and replaces it on a match. It appends exactly one quest's entries. |
| BallbanUtility.GetRequiredSubmitItemsLoop | Utility.cs:79-109 | The nested loops build the same list as the query-style version. |
| BallbanUtility.LockedPerkRecords | src/Utility.cs:86-102 | A tree's records come exactly from its locked perks' cost entries for the item. |
| BallbanUtility.GetRequiredPerkEntries | src/Utility.cs:83-105 | A record is listed exactly when some tree's locked perks yield it. There is no denylist and no unlocking check. |
| BallbanUtility.LockedPerkRecordsAppend | src/Utility.cs:86-102 | The records of a concatenated perk list are the records of the first part followed by those of the second. |
| BallbanUtility.LockedPerkRecordsSingle | src/Utility.cs:86-102 | A locked perk yields one record per cost entry of the item, in cost-list order. An unlocked perk yields none. |
| BallbanUtility.GetRequiredPerkEntriesAppend | src/Utility.cs:83-105 | The records of a concatenated tree list are the records of the first part followed by those of the second. |
| BallbanUtility.GetRequiredPerkEntriesSingle | src/Utility.cs:83-105 | Every tree yields its locked perks' records; there is no denylist. |
| BallbanUtility.TreeRecordsWithinLocked | src/GetRequiredItemAmount.cs:499-519 | The later per-tree records are a sub-list of the earlier ones, in the same order. |
| BallbanUtility.LaterPerksWithinEarlier | src/GetRequiredItemAmount.cs:488-523 | The later perk list is an order-preserving sub-list of the earlier one. |
| BallbanUtility.GetRequiredBuildings | src/Utility.cs:55-68 | A record is listed exactly when an unplaced, non-testing building has a cost entry of the item. |
| BallbanUtility.GetRequiredBuildingsAppend | src/Utility.cs:55-68 | The records of a concatenated building list are the records of the first part followed by those of the second. |
| BallbanUtility.GetRequiredBuildingsSingle | src/Utility.cs:55-68 | An unplaced, non-testing building yields one record per cost entry of the item, in cost-list order. Any other building yields none. |
| BallbanUtility.LaterBuildingsWithinEarlier | src/GetRequiredItemAmount.cs:525-569 | The later building list is an order-preserving sub-list of the earlier one. |
| BallbanUtility.GetItemAmountFromInventory | src/Utility.cs:219-226 | A null inventory counts zero. A present one counts the StackCount sum of its non-null items of the type (SumStacks, pinned by its Append/Single lemmas). |
| BallbanUtility.SlotAmount | src/Utility.cs:241-247 | One inventory's slot pass is the slot count of its items, and zero for a null inventory. |
| BallbanUtility.GetItemAmountInInventoryItems | src/Utility.cs:233-250 | With no inventory present the slot count is zero. In general it is the slot count of all present inventories' items taken as one list. |
| BallbanUtility.GetTotalItemAmount | src/Utility.cs:168-175 | The total is the count of the three present inventories' items taken as one list; a storage that is gone counts nothing. |
| BallbanUtility.TwoPassesMakeOne | src/Utility.cs:168-175 | For one inventory, the item pass plus the slot pass equal the later per-inventory count. |
| BallbanUtility.SlotAmountsOfThree | src/Utility.cs:233-250 | The slot pass over the three inventories is the sum of their slot counts. |
| BallbanUtility.TotalAsPerInventory | src/Utility.cs:168-175 | The earlier total is the sum of the later per-inventory counts. |
| BallbanUtility.TotalsAgree | src/GetItemAmount.cs:44-50 | While the storage exists, both totals agree. Without it, the later total exceeds the earlier one by the snapshot's count. |
| LocalizedText.Suffix | src/LocalizedText.cs:59-67 | Every language resolves to one of the five table suffixes. Exactly the unlisted languages resolve to `Default`. |
| LocalizedText.Get | src/LocalizedText.cs:56-71 | A present key gives its text. A missing key gives empty text. With the line-break flag, which is set unless the caller clears it, the text starts with a line break. |
| LocalizedText.ChineseIsSimplified | src/LocalizedText.cs:61-62 | `Chinese` and `ChineseSimplified` read the same entry. |
| LocalizedText.OthersReadDefault | src/LocalizedText.cs:66 | Every unlisted language reads the same entry, the `_Default` one. |
| LocalizedText.NewLinePrefix | src/LocalizedText.cs:56-71 | The default call equals the call with the flag, and both are a line break followed by the output without it. |
| LocalizedText.SuffixComplete | src/LocalizedText.cs:12-49 | Each of the six base keys has a non-empty entry under each of the five suffixes. |
| LocalizedText.BaseKeysComplete | src/LocalizedText.cs:12-49 | For the six base keys, no language sees empty text. |

## Left out

- Event plumbing is not modelled: subscribing, unsubscribing and registering per-perk listeners (src/GetRequiredItemAmount.cs:302-346, 571-616). A notification is a value handed to `RequirementCache.Handle`. Registration is kept only as a flag.
- Reflection reads of private task fields, and the Harmony patch that clones the storage on destroy, are not modelled. The fields are plain datatype fields, and the clone is a function the caller applies.
- UI, key polling, colour markup, debug dumps and file I/O are not modelled (ModBehaviour.cs, src/ModBehaviour.cs, src/Test.cs).
- General .NET regular-expression semantics are not modelled; only the one pattern is. `\d` is read as `0`-`9` rather than every Unicode decimal digit. `\s` is read as ASCII whitespace plus U+0085 and U+00A0, rather than every Unicode space. `$` is read as the end of the text, without .NET's allowance for one final line feed.
- Integer widths are not modelled: the counts, amounts and sums are unbounded integers, with no 32-bit overflow and no `long` to `int` truncation.
- The dictionary the earlier submit queries return is an ordered list of (task, amount) pairs. The exception .NET throws when the same task is added twice is not modelled.
- An inventory whose content list is null counts as empty. In the later count (src/GetItemAmount.cs:124) an item's slot list that is null is skipped, and the model folds it into the item having no slots. The earlier slot count checks only the slot collection (src/Utility.cs:244) and throws on a null slot list at src/Utility.cs:245; the model does not distinguish the two and does not model that exception.
- The earlier queries dereference perk trees, perks, their requirements and building cost lists without null checks. The model requires those objects to be present (`PerksPresent`, `CostsPresent`) instead of modelling the exception. The earlier quest universe and earlier submit query take a collection without null entries for the same reason.
- The order in which `ExcludeChildren` visits children is modelled as the order of the children lists. Only the resulting set is stated, and the set does not depend on the order.
- The perk query of Utility.cs:30-46 is identical to src/Utility.cs:83-105. `BallbanUtility.GetRequiredPerkEntries` models both, and `BallbanUtility.UnfilteredPreparedQuests` models the quest query of Utility.cs:53-72.
- Display names are compared with the culture-sensitive `StartsWith`/`EndsWith` the code calls (src/GetRequiredItemAmount.cs:105-108, src/Utility.cs:38-41). The model compares characters exactly. A character the culture ignores, such as U+00AD, can stand before the leading `*` or after the trailing `*` (as in `"*x*\u00AD"`) and the name still counts as a testing name in the code, but not in the model. The exception a null display name raises is not modelled either.
- The later core dereferences several host collections without a null check: the perk manager's tree list (src/GetRequiredItemAmount.cs:494), a tree's perk list (:499), the building collection's info list (:536) and the quest manager's finished-quest list (:363, :402). The model reads a missing perk manager as `perkTrees == None`, gives every tree a perk list, gives a present building collection a list, and gives the finished quests as a set; the exceptions those nulls would raise are not modelled.
- The earlier queries read `BuildingDataCollection.Instance` (src/Utility.cs:57) and `PerkTreeManager.Instance` (src/Utility.cs:85, Utility.cs:32) without a null check. The model takes their lists as inputs and does not model the exception a missing manager raises.
- `Regex.Match` throws on a null task description (src/Utility.cs:153, Utility.cs:97). The model's descriptions are always strings.
- Utility.cs:15-16 captures the quest collection and quest manager in static fields when the class is first used. The model takes them as inputs at each call, so it does not model a stale or null capture.
- The earlier queries throw when the quest manager or the item is null. The model takes a present manager and a present item instead of modelling the exception.
- Host object identity is not modelled. Quests, tasks and items are compared by value, so two equal tasks of different quests are the same value.

=== FILE: amount_pattern.dfy ===
/**
 The amount the older submit-item query reads out of a task description: group 1 of the first match
 of `(\d+)[^\d]+\d+\s?$`, or "err" when there is none. The text must end in a digit run, optionally
 followed by one whitespace character, and the group is the whole digit run before it, with
 non-digits between the two runs.

 `\d` is read as '0'..'9' and `$` as the end of the text; `\s` is the whitespace set below.
 */
module AmountPattern {
  import opened Wrappers

  predicate IsDigit(ch: char) {
    '0' <= ch <= '9'
  }

  /** ASCII whitespace, next line (U+0085) and no-break space (U+00A0). */
  predicate IsSpace(ch: char) {
    ch == ' ' || ch == '\t' || ch == '\n' || ch == '\r' || ch == '\U{000B}' || ch == '\U{000C}'
    || ch == '\U{0085}' || ch == '\U{00A0}'
  }

  /** `s` has a digit at position `k`. */
  predicate DigitAt(s: string, k: int) {
    0 <= k < |s| && IsDigit(s[k])
  }

  /** `s` has a non-digit at position `k`. */
  predicate NonDigitAt(s: string, k: int) {
    0 <= k < |s| && !IsDigit(s[k])
  }

  predicate AllDigits(s: string, lo: int, hi: int)
    requires 0 <= lo <= hi <= |s|
  {
    forall k :: lo <= k < hi ==> IsDigit(s[k])
  }

  predicate NoDigits(s: string, lo: int, hi: int)
    requires 0 <= lo <= hi <= |s|
  {
    forall k :: lo <= k < hi ==> !IsDigit(s[k])
  }

  /**
   The pattern, read declaratively: it matches `s` from `i` with group 1 = `s[i..a]` when `s[i..a]` is
   digits, `s[a..b]` non-digits and `s[b..c]` digits, all non-empty, and after `c` there is nothing or
   a single whitespace character.
   */
  predicate Shape(s: string, i: int, a: int, b: int, c: int) {
    && 0 <= i < a < b < c <= |s|
    && AllDigits(s, i, a)
    && NoDigits(s, a, b)
    && AllDigits(s, b, c)
    && (c == |s| || (c + 1 == |s| && IsSpace(s[c])))
  }

  /** Where the maximal digit run starting at `i` ends. */
  function DigitRunEnd(s: string, i: nat): (r: nat)
    requires i <= |s|
    ensures i <= r <= |s| && AllDigits(s, i, r)
    ensures r == |s| || !IsDigit(s[r])
    decreases |s| - i
  {
    if i < |s| && IsDigit(s[i]) then DigitRunEnd(s, i + 1) else i
  }

  /** Where the maximal non-digit run starting at `i` ends. */
  function NonDigitRunEnd(s: string, i: nat): (r: nat)
    requires i <= |s|
    ensures i <= r <= |s| && NoDigits(s, i, r)
    ensures r == |s| || IsDigit(s[r])
    decreases |s| - i
  {
    if i < |s| && !IsDigit(s[i]) then NonDigitRunEnd(s, i + 1) else i
  }

  /**
   One attempt of the backtracking matcher at `i`. Each greedy quantifier takes its whole run: giving
   back characters of the first or second run would leave a digit where a non-digit is needed or the
   other way round, and giving back digits of the last run leaves a digit before the end.
   */
  function MatchAt(s: string, i: nat): Option<string>
    requires i <= |s|
  {
    if i == |s| || !IsDigit(s[i]) then None
    else
      var a := DigitRunEnd(s, i);
      if a == |s| then None
      else
        var b := NonDigitRunEnd(s, a);
        if b == |s| then None
        else
          var c := DigitRunEnd(s, b);
          if c == |s| || (c + 1 == |s| && IsSpace(s[c])) then Some(s[i..a]) else None
  }

  /** The three runs of a match are forced: two shapes from the same start coincide. */
  lemma ShapeUnique(s: string, i: int, a: int, b: int, c: int, a': int, b': int, c': int)
    requires Shape(s, i, a, b, c) && Shape(s, i, a', b', c')
    ensures a == a' && b == b' && c == c'
  {
    assert a < a' ==> DigitAt(s, a);
    assert a' < a ==> DigitAt(s, a');
    assert b < b' ==> NonDigitAt(s, b);
    assert b' < b ==> NonDigitAt(s, b');
    assert c < c' ==> DigitAt(s, c);
    assert c' < c ==> DigitAt(s, c');
  }

  /** The matcher's attempt at `i` agrees with the declarative reading of the pattern. */
  lemma MatchAtSound(s: string, i: nat, g: string)
    requires i <= |s|
    ensures MatchAt(s, i) == Some(g) <==> exists a, b, c :: Shape(s, i, a, b, c) && g == s[i..a]
  {
    if MatchAt(s, i) == Some(g) {
      var a := DigitRunEnd(s, i);
      var b := NonDigitRunEnd(s, a);
      var c := DigitRunEnd(s, b);
      assert Shape(s, i, a, b, c);
    }
    if exists a, b, c :: Shape(s, i, a, b, c) && g == s[i..a] {
      var a, b, c :| Shape(s, i, a, b, c) && g == s[i..a];
      var a' := DigitRunEnd(s, i);
      var b' := NonDigitRunEnd(s, a');
      var c' := DigitRunEnd(s, b');
      assert a' < a ==> DigitAt(s, a');
      assert a < a' ==> DigitAt(s, a);
      assert b' < b ==> NonDigitAt(s, b');
      assert b < b' ==> NonDigitAt(s, b);
      assert c' < c ==> DigitAt(s, c');
      assert c < c' ==> DigitAt(s, c);
    }
  }

  /** The leftmost attempt from `i` on that succeeds. */
  function FirstMatch(s: string, i: nat): (r: Option<string>)
    requires i <= |s|
    ensures r.None? ==> forall j :: i <= j <= |s| ==> MatchAt(s, j).None?
    ensures r.Some? ==> exists j :: i <= j <= |s| && MatchAt(s, j) == r && forall k :: i <= k < j ==> MatchAt(s, k).None?
    decreases |s| - i
  {
    if MatchAt(s, i).Some? then MatchAt(s, i)
    else if i == |s| then None
    else
      var r := FirstMatch(s, i + 1);
      LeftmostStep(s, i, r);
      r
  }

  /** A failed attempt at `i` extends the leftmost match found from `i + 1` on back to `i`. */
  lemma LeftmostStep(s: string, i: nat, r: Option<string>)
    requires i < |s| && MatchAt(s, i).None?
    requires r.Some? ==> exists j :: i + 1 <= j <= |s| && MatchAt(s, j) == r && forall k :: i + 1 <= k < j ==> MatchAt(s, k).None?
    ensures r.Some? ==> exists j :: i <= j <= |s| && MatchAt(s, j) == r && forall k :: i <= k < j ==> MatchAt(s, k).None?
  {
    if r.Some? {
      var j :| i + 1 <= j <= |s| && MatchAt(s, j) == r && forall k :: i + 1 <= k < j ==> MatchAt(s, k).None?;
      assert forall k :: i <= k < j ==> MatchAt(s, k).None?;
    }
  }

  /** The amount text of a description: the first match's group, or "err". */
  function ParseAmount(description: string): (r: string)
    ensures r == "err" <==> forall j :: 0 <= j <= |description| ==> MatchAt(description, j).None?
  {
    match FirstMatch(description, 0)
    case Some(g) =>
      assert g != "err" by {
        var j :| 0 <= j <= |description| && MatchAt(description, j) == Some(g);
        assert IsDigit(g[0]);
      }
      g
    case None => "err"
  }

  /** ParseAmount against the declarative pattern: the group of the leftmost start with a match. */
  lemma ParseAmountSpec(description: string, g: string)
    requires g != "err"
    ensures ParseAmount(description) == g <==>
      exists i, a, b, c :: Shape(description, i, a, b, c) && g == description[i..a]
        && forall j, a', b', c' :: 0 <= j < i ==> !Shape(description, j, a', b', c')
  {
    var s := description;
    if ParseAmount(s) == g {
      var i :| 0 <= i <= |s| && MatchAt(s, i) == Some(g) && forall k :: 0 <= k < i ==> MatchAt(s, k).None?;
      MatchAtSound(s, i, g);
      var a, b, c :| Shape(s, i, a, b, c) && g == s[i..a];
      forall j, a', b', c' | 0 <= j < i
        ensures !Shape(s, j, a', b', c')
      {
        if Shape(s, j, a', b', c') {
          MatchAtSound(s, j, s[j..a']);
        }
      }
    }
    if exists i, a, b, c :: Shape(s, i, a, b, c) && g == s[i..a]
        && forall j, a', b', c' :: 0 <= j < i ==> !Shape(s, j, a', b', c') {
      var i, a, b, c :| Shape(s, i, a, b, c) && g == s[i..a]
        && forall j, a', b', c' :: 0 <= j < i ==> !Shape(s, j, a', b', c');
      MatchAtSound(s, i, g);
      forall k | 0 <= k < i
        ensures MatchAt(s, k).None?
      {
        if MatchAt(s, k).Some? {
          MatchAtSound(s, k, MatchAt(s, k).value);
        }
      }
      var r := FirstMatch(s, 0);
      assert r.Some?;
      var j :| 0 <= j <= |s| && MatchAt(s, j) == r && forall k :: 0 <= k < j ==> MatchAt(s, k).None?;
      assert j == i;
    }
  }

  lemma ExampleFraction()
    ensures ParseAmount("x 3/10") == "3"
  {
    var s := "x 3/10";
    assert MatchAt(s, 0).None?;
    assert DigitRunEnd(s, 2) == 3;
    assert NonDigitRunEnd(s, 3) == 4;
    assert DigitRunEnd(s, 4) == 6;
    assert s[2..3] == "3";
    assert MatchAt(s, 2) == Some("3");
    assert MatchAt(s, 1).None?;
  }

  lemma ExampleTrailingSpace()
    ensures ParseAmount("Submit 2/10 ") == "2"
  {
    var s := "Submit 2/10 ";
    forall k | 0 <= k < 7
      ensures MatchAt(s, k).None?
    {
      assert !IsDigit(s[k]);
    }
    assert DigitRunEnd(s, 7) == 8;
    assert NonDigitRunEnd(s, 8) == 9;
    assert DigitRunEnd(s, 9) == 11;
    assert s[7..8] == "2";
    assert MatchAt(s, 7) == Some("2");
  }

  lemma ExampleSingleNumber()
    ensures ParseAmount("Bring 7") == "err"
  {
    var s := "Bring 7";
    assert DigitRunEnd(s, 6) == 7;
    assert MatchAt(s, 6).None? && MatchAt(s, 7).None?;
    assert FirstMatch(s, 6).None?;
    assert !IsDigit(s[5]) && !IsDigit(s[4]) && !IsDigit(s[3]);
    assert FirstMatch(s, 3).None?;
    assert !IsDigit(s[2]) && !IsDigit(s[1]) && !IsDigit(s[0]);
    assert FirstMatch(s, 0).None?;
  }
}

=== FILE: ballban_utility.dfy ===
/**
 The earlier queries of the mod, which compute everything on each call without a cache: a quest
 universe that only drops testing quests, perk and building lists without the later filters, a
 submit list that reads the amount out of the task description, and a stock count that adds slot
 contents in a separate pass. The oldest variant runs the same quest, perk and submit queries over
 the unfiltered quest collection.

 The code dereferences the perk, building and cost objects without null checks; the functions below
 require those objects to be present instead of modelling the exception.
 */
module BallbanUtility {
  import opened Wrappers
  import opened Domain
  import opened Seqs
  import opened QuestUniverse
  import opened Requirements
  import opened AmountPattern
  import opened ItemAmount

  // ---------------------------------------------------------------- quest universe

  /** The quest universe of this version: the collection without testing-named quests, in order. */
  function InitTotalQuests(collection: seq<Quest>): (r: seq<Quest>)
    ensures IsSublist(r, collection)
    ensures forall q :: q in r <==> q in collection && !IsTestingName(q.displayName)
    decreases |collection|
  {
    if |collection| == 0 then []
    else
      var rest := InitTotalQuests(collection[1..]);
      assert forall q :: q in collection <==> q == collection[0] || q in collection[1..] by {
        assert collection == [collection[0]] + collection[1..];
      }
      if IsTestingName(collection[0].displayName) then rest else [collection[0]] + rest
  }

  /** The later universe, which also drops excluded quest ids, is a sub-list of this one. */
  lemma {:induction false} KeptWithinTestingFilter(quests: seq<Quest>, excluded: set<int>)
    ensures IsSublist(KeepQuests(quests, excluded), InitTotalQuests(quests))
    decreases |quests|
  {
    if |quests| > 0 {
      var q := quests[0];
      KeptWithinTestingFilter(quests[1..], excluded);
      var kept := KeepQuests(quests[1..], excluded);
      var all := InitTotalQuests(quests[1..]);
      if IsTestingName(q.displayName) {
      } else if q.id in excluded {
        SublistEmpty([q]);
        SublistConcat([], [q], kept, all);
        assert [] + kept == kept;
      } else {
        SublistRefl([q]);
        SublistConcat([q], [q], kept, all);
      }
    }
  }

  // ---------------------------------------------------------------- prepared quests

  lemma {:induction false} ComputePreparedAppend(a: seq<Quest>, b: seq<Quest>, history: set<int>, itemTypeId: int)
    ensures ComputePrepared(a + b, history, itemTypeId) == ComputePrepared(a, history, itemTypeId) + ComputePrepared(b, history, itemTypeId)
    decreases |a|
  {
    if |a| == 0 {
      assert a + b == b;
    } else {
      assert (a + b)[0] == a[0];
      assert (a + b)[1..] == a[1..] + b;
      ComputePreparedAppend(a[1..], b, history, itemTypeId);
    }
  }

  /**
   The prepared-quest query as a loop over the universe: every unfinished quest whose prepare
   requirement is the item, in order. It returns what the cached computation returns for the same
   universe.
   */
  method GetRequiredQuests(total: seq<Quest>, history: set<int>, item: Item) returns (r: seq<Quest>)
    ensures r == ComputePrepared(total, history, item.typeId)
  {
    r := [];
    var i := 0;
    while i < |total|
      invariant 0 <= i <= |total|
      invariant r == ComputePrepared(total[..i], history, item.typeId)
    {
      var q := total[i];
      assert total[..i + 1] == total[..i] + [q];
      ComputePreparedAppend(total[..i], [q], history, item.typeId);
      assert [q][1..] == [];
      if q.id !in history && q.requiredItemId == item.typeId {
        r := r + [q];
      }
      i := i + 1;
    }
    assert total[..i] == total;
  }

  /** A filter that keeps a sub-list of its input keeps a sub-list of the prepared quests too. */
  lemma {:induction false} PreparedMonotone(a: seq<Quest>, b: seq<Quest>, history: set<int>, itemTypeId: int)
    requires IsSublist(a, b)
    ensures IsSublist(ComputePrepared(a, history, itemTypeId), ComputePrepared(b, history, itemTypeId))
    decreases |b|
  {
    if |b| > 0 {
      var keep := b[0].requiredItemId == itemTypeId && b[0].id !in history;
      if |a| > 0 && a[0] == b[0] && IsSublist(a[1..], b[1..]) {
        PreparedMonotone(a[1..], b[1..], history, itemTypeId);
        if keep {
          SublistRefl([b[0]]);
          SublistConcat([b[0]], [b[0]], ComputePrepared(a[1..], history, itemTypeId), ComputePrepared(b[1..], history, itemTypeId));
        }
      } else {
        PreparedMonotone(a, b[1..], history, itemTypeId);
        if keep {
          SublistEmpty([b[0]]);
          SublistConcat([], [b[0]], ComputePrepared(a, history, itemTypeId), ComputePrepared(b[1..], history, itemTypeId));
          assert [] + ComputePrepared(a, history, itemTypeId) == ComputePrepared(a, history, itemTypeId);
        }
      }
    }
  }

  /**
   The oldest variant scans the unfiltered collection, so it also lists testing-named quests; this
   version's list is a sub-list of it.
   */
  lemma UnfilteredPreparedQuests(collection: seq<Quest>, history: set<int>, itemTypeId: int)
    ensures forall q :: q in ComputePrepared(collection, history, itemTypeId) <==>
      q in collection && q.requiredItemId == itemTypeId && q.id !in history
    ensures IsSublist(ComputePrepared(InitTotalQuests(collection), history, itemTypeId), ComputePrepared(collection, history, itemTypeId))
  {
    PreparedMonotone(InitTotalQuests(collection), collection, history, itemTypeId);
  }

  // ---------------------------------------------------------------- submit items

  /** An unfinished submit task of the item. */
  predicate SubmitMatch(t: Task, itemTypeId: int) {
    t.SubmitItem? && !t.finished && t.itemTypeId == itemTypeId
  }

  /** The entries of one quest's tasks: each matching task with the amount text of its description. */
  function SubmitEntries(tasks: seq<Task>, itemTypeId: int): (r: seq<(Task, string)>)
    ensures forall e :: e in r <==> e.0 in tasks && SubmitMatch(e.0, itemTypeId) && e.1 == ParseAmount(e.0.description)
    decreases |tasks|
  {
    if |tasks| == 0 then []
    else
      var rest := SubmitEntries(tasks[1..], itemTypeId);
      assert forall t :: t in tasks <==> t == tasks[0] || t in tasks[1..] by {
        assert tasks == [tasks[0]] + tasks[1..];
      }
      if SubmitMatch(tasks[0], itemTypeId) then [(tasks[0], ParseAmount(tasks[0].description))] + rest else rest
  }

  lemma {:induction false} SubmitEntriesAppend(a: seq<Task>, b: seq<Task>, itemTypeId: int)
    ensures SubmitEntries(a + b, itemTypeId) == SubmitEntries(a, itemTypeId) + SubmitEntries(b, itemTypeId)
    decreases |a|
  {
    if |a| == 0 {
      assert a + b == b;
    } else {
      assert (a + b)[0] == a[0];
      assert (a + b)[1..] == a[1..] + b;
      SubmitEntriesAppend(a[1..], b, itemTypeId);
    }
  }

  /** The quests whose tasks are read: unfinished ones with a task list. */
  predicate SubmitQuest(q: Quest, history: set<int>) {
    q.id !in history && q.tasks.Some?
  }

  function QuestSubmitEntries(q: Quest, history: set<int>, itemTypeId: int): seq<(Task, string)> {
    if SubmitQuest(q, history) then SubmitEntries(q.tasks.value, itemTypeId) else []
  }

  /**
   The submit query: every unfinished submit task of the item in an unfinished quest, paired with the
   amount text read from its description ("err" when the description does not end in "n ... m").
   */
  function GetRequiredSubmitItems(total: seq<Quest>, history: set<int>, item: Item): (r: seq<(Task, string)>)
    ensures forall e :: e in r <==>
      && SubmitMatch(e.0, item.typeId)
      && e.1 == ParseAmount(e.0.description)
      && exists q :: q in total && SubmitQuest(q, history) && e.0 in q.tasks.value
    decreases |total|
  {
    if |total| == 0 then []
    else
      var rest := GetRequiredSubmitItems(total[1..], history, item);
      assert forall q :: q in total <==> q == total[0] || q in total[1..] by {
        assert total == [total[0]] + total[1..];
      }
      QuestSubmitEntries(total[0], history, item.typeId) + rest
  }

  lemma {:induction false} SubmitItemsAppend(a: seq<Quest>, b: seq<Quest>, history: set<int>, item: Item)
    ensures GetRequiredSubmitItems(a + b, history, item) == GetRequiredSubmitItems(a, history, item) + GetRequiredSubmitItems(b, history, item)
    decreases |a|
  {
    if |a| == 0 {
      assert a + b == b;
    } else {
      assert (a + b)[0] == a[0];
      assert (a + b)[1..] == a[1..] + b;
      SubmitItemsAppend(a[1..], b, history, item);
    }
  }

  /** The inner loop of the oldest variant: appends the entries of one quest's tasks. Each amount
      starts as "err" and is overwritten with the match's group when there is one. */
  method AppendTaskEntries(r0: seq<(Task, string)>, tasks: seq<Task>, item: Item) returns (r: seq<(Task, string)>)
    ensures r == r0 + SubmitEntries(tasks, item.typeId)
  {
    r := r0;
    var j := 0;
    while j < |tasks|
      invariant 0 <= j <= |tasks|
      invariant r == r0 + SubmitEntries(tasks[..j], item.typeId)
    {
      var task := tasks[j];
      assert tasks[..j + 1] == tasks[..j] + [task];
      SubmitEntriesAppend(tasks[..j], [task], item.typeId);
      assert [task][1..] == [];
      if task.SubmitItem? && !task.finished && task.itemTypeId == item.typeId {
        var amountStr := "err";
        var m := FirstMatch(task.description, 0);
        if m.Some? {
          amountStr := m.value;
        }
        r := r + [(task, amountStr)];
      }
      j := j + 1;
    }
    assert tasks[..j] == tasks;
  }

  /**
   The oldest variant of the submit query, as nested loops over the quests and their tasks. It builds
   the same list as the query above.
   */
  method GetRequiredSubmitItemsLoop(total: seq<Quest>, history: set<int>, item: Item) returns (r: seq<(Task, string)>)
    ensures r == GetRequiredSubmitItems(total, history, item)
  {
    r := [];
    var i := 0;
    while i < |total|
      invariant 0 <= i <= |total|
      invariant r == GetRequiredSubmitItems(total[..i], history, item)
    {
      var quest := total[i];
      assert total[..i + 1] == total[..i] + [quest];
      SubmitItemsAppend(total[..i], [quest], history, item);
      assert [quest][1..] == [];
      if quest.id !in history && quest.tasks.Some? {
        r := AppendTaskEntries(r, quest.tasks.value, item);
      }
      i := i + 1;
    }
    assert total[..i] == total;
  }

  // ---------------------------------------------------------------- perks

  /** The host objects the perk query dereferences: every tree and perk, and the cost of every locked perk. */
  predicate PerksPresent(trees: seq<Option<PerkTree>>) {
    forall x :: x in trees ==> x.Some? && PerkListPresent(x.value.perks)
  }

  predicate PerkListPresent(perks: seq<Option<Perk>>) {
    forall p :: p in perks ==> p.Some? && (!p.value.unlocked ==> p.value.cost.Some?)
  }

  /** The records of one tree: one per matching cost entry of each locked perk. */
  function LockedPerkRecords(treeName: string, perks: seq<Option<Perk>>, itemTypeId: int): (r: seq<RequiredPerk>)
    requires PerkListPresent(perks)
    ensures forall e :: e in r <==>
      && e.perkTreeName == treeName
      && exists p :: Some(p) in perks && !p.unlocked && e.perkName == p.displayName && CostEntry(itemTypeId, e.amount) in p.cost.value
    decreases |perks|
  {
    if |perks| == 0 then []
    else
      assert forall x :: x in perks <==> x == perks[0] || x in perks[1..] by {
        assert perks == [perks[0]] + perks[1..];
      }
      var rest := LockedPerkRecords(treeName, perks[1..], itemTypeId);
      var p := perks[0].value;
      if p.unlocked then rest
      else PerkRecordsOf(treeName, p.displayName, MatchingAmounts(p.cost.value, itemTypeId)) + rest
  }

  /** The perk query: every locked perk of every tree, with no tree denylist and no unlocking check. */
  function GetRequiredPerkEntries(trees: seq<Option<PerkTree>>, item: Item): (r: seq<RequiredPerk>)
    requires PerksPresent(trees)
    ensures forall e :: e in r <==> exists tree :: Some(tree) in trees && e in LockedPerkRecords(tree.displayName, tree.perks, item.typeId)
    decreases |trees|
  {
    if |trees| == 0 then []
    else
      assert forall x :: x in trees <==> x == trees[0] || x in trees[1..] by {
        assert trees == [trees[0]] + trees[1..];
      }
      var tree := trees[0].value;
      LockedPerkRecords(tree.displayName, tree.perks, item.typeId) + GetRequiredPerkEntries(trees[1..], item)
  }

  /** The records of a perk list are those of its parts, in order. */
  lemma {:induction false} LockedPerkRecordsAppend(treeName: string, a: seq<Option<Perk>>, b: seq<Option<Perk>>, itemTypeId: int)
    requires PerkListPresent(a) && PerkListPresent(b)
    ensures PerkListPresent(a + b)
    ensures LockedPerkRecords(treeName, a + b, itemTypeId)
      == LockedPerkRecords(treeName, a, itemTypeId) + LockedPerkRecords(treeName, b, itemTypeId)
    decreases |a|
  {
    assert forall x :: x in a + b ==> x in a || x in b;
    if |a| == 0 {
      assert a + b == b;
    } else {
      assert (a + b)[0] == a[0];
      assert (a + b)[1..] == a[1..] + b;
      assert PerkListPresent(a[1..]) by {
        assert forall x :: x in a[1..] ==> x in a;
      }
      LockedPerkRecordsAppend(treeName, a[1..], b, itemTypeId);
      var p := a[0].value;
      assert LockedPerkRecords(treeName, a, itemTypeId)
        == (if p.unlocked then [] else PerkRecordsOf(treeName, p.displayName, MatchingAmounts(p.cost.value, itemTypeId)))
           + LockedPerkRecords(treeName, a[1..], itemTypeId);
    }
  }

  /** A single perk yields one record per matching cost entry when it is locked, and none otherwise. */
  lemma LockedPerkRecordsSingle(treeName: string, p: Perk, itemTypeId: int)
    requires PerkListPresent([Some(p)])
    ensures LockedPerkRecords(treeName, [Some(p)], itemTypeId)
      == if p.unlocked then [] else PerkRecordsOf(treeName, p.displayName, MatchingAmounts(p.cost.value, itemTypeId))
  {
    assert [Some(p)][1..] == [];
  }

  /** The records of a tree list are those of its parts, in order. */
  lemma {:induction false} GetRequiredPerkEntriesAppend(a: seq<Option<PerkTree>>, b: seq<Option<PerkTree>>, item: Item)
    requires PerksPresent(a) && PerksPresent(b)
    ensures PerksPresent(a + b)
    ensures GetRequiredPerkEntries(a + b, item) == GetRequiredPerkEntries(a, item) + GetRequiredPerkEntries(b, item)
    decreases |a|
  {
    if |a| == 0 {
      assert a + b == b;
    } else {
      assert (a + b)[0] == a[0];
      assert (a + b)[1..] == a[1..] + b;
      assert PerksPresent(a[1..]) by {
        assert forall x :: x in a[1..] ==> x in a;
      }
      GetRequiredPerkEntriesAppend(a[1..], b, item);
    }
  }

  /** A single tree yields the records of its locked perks, with no denylist. */
  lemma GetRequiredPerkEntriesSingle(tree: PerkTree, item: Item)
    requires PerksPresent([Some(tree)])
    ensures GetRequiredPerkEntries([Some(tree)], item) == LockedPerkRecords(tree.displayName, tree.perks, item.typeId)
  {
    assert [Some(tree)][1..] == [];
  }

  lemma {:induction false} TreeRecordsWithinLocked(treeName: string, perks: seq<Option<Perk>>, itemTypeId: int)
    requires PerkListPresent(perks)
    ensures IsSublist(TreePerkRecords(treeName, perks, itemTypeId), LockedPerkRecords(treeName, perks, itemTypeId))
    decreases |perks|
  {
    if |perks| > 0 {
      assert PerkListPresent(perks[1..]) by {
        assert forall x :: x in perks[1..] ==> x in perks;
      }
      TreeRecordsWithinLocked(treeName, perks[1..], itemTypeId);
      var newRest := TreePerkRecords(treeName, perks[1..], itemTypeId);
      var oldRest := LockedPerkRecords(treeName, perks[1..], itemTypeId);
      var p := perks[0].value;
      if !p.unlocked {
        var block := PerkRecordsOf(treeName, p.displayName, MatchingAmounts(p.cost.value, itemTypeId));
        if PerkKept(p) {
          SublistRefl(block);
          SublistConcat(block, block, newRest, oldRest);
        } else {
          SublistEmpty(block);
          SublistConcat([], block, newRest, oldRest);
          assert [] + newRest == newRest;
        }
      }
    }
  }

  /** The later perk list only adds filters, so it is a sub-list of this one, in the same order. */
  lemma {:induction false} LaterPerksWithinEarlier(trees: seq<Option<PerkTree>>, item: Item)
    requires PerksPresent(trees)
    ensures IsSublist(PerkPass(trees, item.typeId), GetRequiredPerkEntries(trees, item))
    decreases |trees|
  {
    if |trees| > 0 {
      assert PerksPresent(trees[1..]) by {
        assert forall x :: x in trees[1..] ==> x in trees;
      }
      LaterPerksWithinEarlier(trees[1..], item);
      var tree := trees[0].value;
      var newRest := PerkPass(trees[1..], item.typeId);
      var oldRest := GetRequiredPerkEntries(trees[1..], item);
      var block := LockedPerkRecords(tree.displayName, tree.perks, item.typeId);
      if tree.id in ExcludedPerkTreeIds {
        SublistEmpty(block);
        SublistConcat([], block, newRest, oldRest);
        assert [] + newRest == newRest;
      } else {
        TreeRecordsWithinLocked(tree.displayName, tree.perks, item.typeId);
        SublistConcat(TreePerkRecords(tree.displayName, tree.perks, item.typeId), block, newRest, oldRest);
      }
    }
  }

  // ---------------------------------------------------------------- buildings

  /** An unplaced building that is not a testing object. */
  predicate Unplaced(b: BuildingInfo) {
    b.currentAmount == 0 && !IsTestingName(b.displayName)
  }

  /** The host objects the building query dereferences: the cost list of every unplaced building. */
  predicate CostsPresent(infos: seq<BuildingInfo>) {
    forall b :: b in infos && Unplaced(b) ==> b.cost.Some?
  }

  /** The building query: one record per matching cost entry of every unplaced, non-testing building. */
  function GetRequiredBuildings(infos: seq<BuildingInfo>, item: Item): (r: seq<RequiredBuilding>)
    requires CostsPresent(infos)
    ensures forall e :: e in r <==>
      exists b :: b in infos && Unplaced(b) && e.buildingName == b.displayName && CostEntry(item.typeId, e.amount) in b.cost.value
    decreases |infos|
  {
    if |infos| == 0 then []
    else
      assert forall x :: x in infos <==> x == infos[0] || x in infos[1..] by {
        assert infos == [infos[0]] + infos[1..];
      }
      var rest := GetRequiredBuildings(infos[1..], item);
      var b := infos[0];
      if Unplaced(b) then
        var head := BuildingRecordsOf(b.displayName, MatchingAmounts(b.cost.value, item.typeId));
        head + rest
      else rest
  }

  /** The records of a building list are those of its parts, in order. */
  lemma {:induction false} GetRequiredBuildingsAppend(a: seq<BuildingInfo>, b: seq<BuildingInfo>, item: Item)
    requires CostsPresent(a) && CostsPresent(b)
    ensures CostsPresent(a + b)
    ensures GetRequiredBuildings(a + b, item) == GetRequiredBuildings(a, item) + GetRequiredBuildings(b, item)
    decreases |a|
  {
    if |a| == 0 {
      assert a + b == b;
    } else {
      assert (a + b)[0] == a[0];
      assert (a + b)[1..] == a[1..] + b;
      assert CostsPresent(a[1..]) by {
        assert forall x :: x in a[1..] ==> x in a;
      }
      GetRequiredBuildingsAppend(a[1..], b, item);
    }
  }

  /** A single building yields one record per matching cost entry when it is unplaced, and none otherwise. */
  lemma GetRequiredBuildingsSingle(b: BuildingInfo, item: Item)
    requires CostsPresent([b])
    ensures GetRequiredBuildings([b], item)
      == if Unplaced(b) then BuildingRecordsOf(b.displayName, MatchingAmounts(b.cost.value, item.typeId)) else []
  {
    assert [b][1..] == [];
  }

  /** The later building list only adds filters, so it is a sub-list of this one, in the same order. */
  lemma {:induction false} LaterBuildingsWithinEarlier(infos: seq<BuildingInfo>, item: Item)
    requires CostsPresent(infos)
    ensures IsSublist(BuildingPass(infos, item.typeId), GetRequiredBuildings(infos, item))
    decreases |infos|
  {
    if |infos| > 0 {
      assert CostsPresent(infos[1..]) by {
        assert forall x :: x in infos[1..] ==> x in infos;
      }
      LaterBuildingsWithinEarlier(infos[1..], item);
      var b := infos[0];
      var newRest := BuildingPass(infos[1..], item.typeId);
      var oldRest := GetRequiredBuildings(infos[1..], item);
      if Unplaced(b) {
        var block := BuildingRecordsOf(b.displayName, MatchingAmounts(b.cost.value, item.typeId));
        if BuildingKept(b) {
          SublistRefl(block);
          SublistConcat(block, block, newRest, oldRest);
        } else {
          SublistEmpty(block);
          SublistConcat([], block, newRest, oldRest);
          assert [] + newRest == newRest;
        }
      }
    }
  }

  // ---------------------------------------------------------------- item counts

  /** The count of the inventory's own items of the type; a null inventory holds none. */
  function GetItemAmountFromInventory(inv: Option<Inventory>, typeId: int): (r: int)
    ensures inv.None? ==> r == 0
    ensures inv.Some? ==> r == SumStacks(Items(inv.value), typeId)
  {
    match inv
    case None => 0
    case Some(i) => SumStacks(Items(i), typeId)
  }

  /** The slot contents of the type in one inventory, one level deep; a null inventory has none. */
  function SlotAmount(inv: Option<Inventory>, typeId: int): (r: int)
    ensures r == FromItemsSlots(ItemsOf(inv), typeId)
  {
    match inv
    case None => 0
    case Some(i) => FromItemsSlots(Items(i), typeId)
  }

  /** The items of every non-null inventory, one inventory after the other. */
  function ItemsOfAll(invs: seq<Option<Inventory>>): seq<Item>
    decreases |invs|
  {
    if |invs| == 0 then [] else ItemsOf(invs[0]) + ItemsOfAll(invs[1..])
  }

  /**
   The slot contents of the type, one level deep, over every non-null inventory: the slot count of
   all their items taken as one list.
   */
  function GetItemAmountInInventoryItems(invs: seq<Option<Inventory>>, typeId: int): (r: int)
    ensures (forall x :: x in invs ==> x.None?) ==> r == 0
    ensures r == FromItemsSlots(ItemsOfAll(invs), typeId)
    decreases |invs|
  {
    if |invs| == 0 then 0
    else
      assert forall x :: x in invs[1..] ==> x in invs;
      FromItemsSlotsAppend(ItemsOf(invs[0]), ItemsOfAll(invs[1..]), typeId);
      SlotAmount(invs[0], typeId) + GetItemAmountInInventoryItems(invs[1..], typeId)
  }

  /**
   Character, pet and storage items, plus the slot contents of all three: the count of the three item
   lists taken as one list. A storage that is gone counts nothing.
   */
  function GetTotalItemAmount(character: Option<Inventory>, pet: Option<Inventory>, storage: Option<Inventory>, typeId: int): (r: int)
    ensures r == FromList(ItemsOf(character) + ItemsOf(pet) + ItemsOf(storage), typeId)
  {
    SlotAmountsOfThree(character, pet, storage, typeId);
    TwoPassesMakeOne(character, typeId);
    TwoPassesMakeOne(pet, typeId);
    TwoPassesMakeOne(storage, typeId);
    FromListAppend(ItemsOf(character), ItemsOf(pet), typeId);
    FromListAppend(ItemsOf(character) + ItemsOf(pet), ItemsOf(storage), typeId);
    GetItemAmountFromInventory(character, typeId)
      + GetItemAmountFromInventory(pet, typeId)
      + GetItemAmountFromInventory(storage, typeId)
      + GetItemAmountInInventoryItems([character, pet, storage], typeId)
  }

  /** The items pass and the slot pass add up to the later per-inventory count. */
  lemma TwoPassesMakeOne(inv: Option<Inventory>, typeId: int)
    ensures GetItemAmountFromInventory(inv, typeId) + GetItemAmountInInventoryItems([inv], typeId) == FromInventory(inv, typeId)
  {
    assert [inv][1..] == [];
  }

  lemma SlotAmountsOfThree(character: Option<Inventory>, pet: Option<Inventory>, storage: Option<Inventory>, typeId: int)
    ensures GetItemAmountInInventoryItems([character, pet, storage], typeId)
      == SlotAmount(character, typeId) + SlotAmount(pet, typeId) + SlotAmount(storage, typeId)
  {
    var last := [storage];
    assert last[1..] == [];
    assert GetItemAmountInInventoryItems(last, typeId) == SlotAmount(storage, typeId);
    var two := [pet, storage];
    assert two[1..] == last;
    assert GetItemAmountInInventoryItems(two, typeId) == SlotAmount(pet, typeId) + GetItemAmountInInventoryItems(last, typeId);
    var three := [character, pet, storage];
    assert three[1..] == two;
  }

  /** This version's stock count, as the sum of the later per-inventory counts, ignoring the snapshot. */
  lemma TotalAsPerInventory(character: Option<Inventory>, pet: Option<Inventory>, storage: Option<Inventory>, typeId: int)
    ensures GetTotalItemAmount(character, pet, storage, typeId)
      == FromInventory(character, typeId) + FromInventory(pet, typeId) + FromInventory(storage, typeId)
  {
    SlotAmountsOfThree(character, pet, storage, typeId);
    TwoPassesMakeOne(character, typeId);
    TwoPassesMakeOne(pet, typeId);
    TwoPassesMakeOne(storage, typeId);
  }

  /**
   While the storage exists both versions count the same stock. Without it this version counts none of
   the storage, while the later one counts the snapshot.
   */
  lemma TotalsAgree(character: Option<Inventory>, pet: Option<Inventory>, storage: Option<Inventory>,
                    snapshot: seq<Item>, typeId: int)
    ensures storage.Some? ==>
      GetTotalItemAmount(character, pet, storage, typeId) == ItemAmount.GetTotalItemAmount(character, pet, storage, snapshot, typeId)
    ensures storage.None? ==>
      ItemAmount.GetTotalItemAmount(character, pet, storage, snapshot, typeId)
        == GetTotalItemAmount(character, pet, storage, typeId) + FromList(snapshot, typeId)
  {
    TotalAsPerInventory(character, pet, storage, typeId);
  }
}

=== FILE: domain.dfy ===
/**
 The game entities the requirement index reads. Every host object that the code null-checks is an
 `Option`; a task's private amount fields, which the code reaches by reflection, are plain fields.
 */
module Domain {
  import opened Wrappers

  /** A quest task. `SubmitItem` and `UseItem` are the two variants that consume an item type;
      every other task type, and a null task, is `Other`. */
  datatype Task =
    | SubmitItem(itemTypeId: int, required: int, progress: int, finished: bool, description: string)
    | UseItem(itemTypeId: int, required: int, progress: int, finished: bool)
    | Other

  /** `requiredItemId` is the single "prepare" requirement; `tasks` is None when the quest's task list is null. */
  datatype Quest = Quest(
    id: int,
    displayName: string,
    requireLevel: int,
    requiredItemId: int,
    requiredItemCount: int,
    tasks: Option<seq<Task>>)

  /** One (item type, amount) pair of a perk or building cost. */
  datatype CostEntry = CostEntry(id: int, amount: int)

  /** `cost` is None when the perk's requirement or its cost item list is null. */
  datatype Perk = Perk(displayName: string, unlocked: bool, unlocking: bool, cost: Option<seq<CostEntry>>)

  datatype PerkTree = PerkTree(id: string, displayName: string, perks: seq<Option<Perk>>)

  datatype BuildingInfo = BuildingInfo(
    id: string,
    displayName: string,
    valid: bool,
    currentAmount: int,
    requireBuildings: Option<seq<string>>,
    cost: Option<seq<CostEntry>>)

  /** An item instance. `slots` is None when the item has no slot collection (or its list is null);
      a None slot stands for a null slot or an empty one. */
  datatype Item = Item(typeId: int, stackCount: int, slots: Option<seq<Option<Item>>>)

  /** The game state one requirement snapshot is computed from.
      `totalQuests` is the filtered quest universe; `historyIds` the ids of finished quests (empty when
      the quest manager is absent); `activeQuests` is None when the quest manager is absent;
      `perkTrees` and `buildings` are None when their managers are absent. */
  datatype GameState = GameState(
    totalQuests: seq<Quest>,
    historyIds: set<int>,
    activeQuests: Option<seq<Option<Quest>>>,
    perkTrees: Option<seq<Option<PerkTree>>>,
    buildings: Option<seq<BuildingInfo>>)

  /** A quest at or above this level gate is not implemented in the game. */
  const UnimplementedLevelRequirement: int := 999

  /** Testing objects are named with a leading and a trailing '*'. A lone "*" counts. */
  predicate IsTestingName(name: string) {
    |name| > 0 && name[0] == '*' && name[|name| - 1] == '*'
  }

  /** The test is the host's two affix checks: the name starts with "*" and ends with "*". */
  lemma TestingNameAffixes(name: string)
    ensures IsTestingName(name) <==> "*" <= name && exists front :: front + "*" == name
  {
    if IsTestingName(name) {
      assert name[..|name| - 1] + "*" == name;
    }
    if exists front :: front + "*" == name {
      var front :| front + "*" == name;
      assert name[|front|] == '*';
    }
  }

  /** The non-null entries of a host list, in order. */
  function NonNull<T(!new)>(xs: seq<Option<T>>): (r: seq<T>)
    ensures |r| <= |xs|
    ensures forall x :: x in r <==> Some(x) in xs
  {
    if |xs| == 0 then []
    else match xs[0]
      case Some(x) => [x] + NonNull(xs[1..])
      case None => NonNull(xs[1..])
  }

  /** Dropping the nulls distributes over concatenation, so the kept entries stay in host order. */
  lemma {:induction false} NonNullAppend<T(!new)>(a: seq<Option<T>>, b: seq<Option<T>>)
    ensures NonNull(a + b) == NonNull(a) + NonNull(b)
    decreases |a|
  {
    if |a| == 0 {
      assert a + b == b;
    } else {
      assert (a + b)[0] == a[0];
      assert (a + b)[1..] == a[1..] + b;
      NonNullAppend(a[1..], b);
    }
  }

  /** A single entry is kept exactly when it is present. */
  lemma NonNullSingle<T(!new)>(x: Option<T>)
    ensures NonNull([x]) == if x.Some? then [x.value] else []
  {
    assert [x][1..] == [];
  }
}

=== FILE: item_amount.dfy ===
/**
 How many of an item type the player holds: the character's inventory, the pet's inventory and the
 player storage, each counted as its items plus the contents of their slots, one level deep. When the
 storage object is gone, a snapshot list taken just before it was destroyed stands in for it.
 */
module ItemAmount {
  import opened Wrappers
  import opened Domain

  /** A host inventory; `content` is None when its content list is null. A null content reads as no
      items. */
  datatype Inventory = Inventory(content: Option<seq<Option<Item>>>)

  /** The non-null items of an inventory, in order. */
  function Items(inv: Inventory): seq<Item> {
    NonNull(inv.content.GetOr([]))
  }

  /** The total stack count of the items of the given type. */
  function SumStacks(items: seq<Item>, typeId: int): (r: int)
    ensures (forall x :: x in items ==> x.typeId != typeId) ==> r == 0
    ensures (forall x :: x in items ==> x.stackCount >= 0) ==> r >= 0
    decreases |items|
  {
    if |items| == 0 then 0
    else
      assert forall x :: x in items[1..] ==> x in items;
      (if items[0].typeId == typeId then items[0].stackCount else 0) + SumStacks(items[1..], typeId)
  }

  lemma {:induction false} SumStacksAppend(a: seq<Item>, b: seq<Item>, typeId: int)
    ensures SumStacks(a + b, typeId) == SumStacks(a, typeId) + SumStacks(b, typeId)
    decreases |a|
  {
    if |a| == 0 {
      assert a + b == b;
    } else {
      assert (a + b)[0] == a[0];
      assert (a + b)[1..] == a[1..] + b;
      SumStacksAppend(a[1..], b, typeId);
    }
  }

  /** A single item contributes its stack count when it is of the type, and nothing otherwise. */
  lemma SumStacksSingle(x: Item, typeId: int)
    ensures SumStacks([x], typeId) == if x.typeId == typeId then x.stackCount else 0
  {
    assert [x][1..] == [];
  }

  /** The non-null contents of one item's slots; an item without a slot list has none. */
  function Contents(it: Item): (r: seq<Item>)
    ensures forall x :: x in r <==> it.slots.Some? && Some(x) in it.slots.value
  {
    match it.slots
    case None => []
    case Some(slots) => NonNull(slots)
  }

  /** The slot contents of every item, in item order: one level deep, never the contents' own slots. */
  function SlotContents(items: seq<Item>): (r: seq<Item>)
    ensures forall x :: x in r <==> exists it :: it in items && x in Contents(it)
    decreases |items|
  {
    if |items| == 0 then []
    else
      assert forall it :: it in items <==> it == items[0] || it in items[1..] by {
        assert items == [items[0]] + items[1..];
      }
      Contents(items[0]) + SlotContents(items[1..])
  }

  lemma {:induction false} SlotContentsAppend(a: seq<Item>, b: seq<Item>)
    ensures SlotContents(a + b) == SlotContents(a) + SlotContents(b)
    decreases |a|
  {
    if |a| == 0 {
      assert a + b == b;
    } else {
      assert (a + b)[0] == a[0];
      assert (a + b)[1..] == a[1..] + b;
      SlotContentsAppend(a[1..], b);
    }
  }

  /** A single item's slot contents are exactly its own contents, once each and in slot order. */
  lemma SlotContentsSingle(it: Item)
    ensures SlotContents([it]) == Contents(it)
  {
    assert [it][1..] == [];
    assert Contents(it) + [] == Contents(it);
  }

  /** The count held in the slots of the listed items. */
  function FromItemsSlots(items: seq<Item>, typeId: int): (r: int)
    ensures (forall it, x :: it in items && x in Contents(it) ==> x.typeId != typeId) ==> r == 0
    ensures (forall it, x :: it in items && x in Contents(it) ==> x.stackCount >= 0) ==> r >= 0
  {
    SumStacks(SlotContents(items), typeId)
  }

  /** The slot count of a list split in two is the sum of the two slot counts. */
  lemma FromItemsSlotsAppend(a: seq<Item>, b: seq<Item>, typeId: int)
    ensures FromItemsSlots(a + b, typeId) == FromItemsSlots(a, typeId) + FromItemsSlots(b, typeId)
  {
    SlotContentsAppend(a, b);
    SumStacksAppend(SlotContents(a), SlotContents(b), typeId);
  }

  /** A single item's slot count is the stack count of its own contents of the type. */
  lemma FromItemsSlotsSingle(it: Item, typeId: int)
    ensures FromItemsSlots([it], typeId) == SumStacks(Contents(it), typeId)
  {
    SlotContentsSingle(it);
  }

  /** The count of a list of items: the items themselves plus their slot contents. */
  function FromList(items: seq<Item>, typeId: int): (r: int)
    ensures (forall it :: it in items ==> it.typeId != typeId && forall x :: x in Contents(it) ==> x.typeId != typeId) ==> r == 0
    ensures (forall it :: it in items ==> it.stackCount >= 0 && forall x :: x in Contents(it) ==> x.stackCount >= 0) ==> r >= 0
  {
    SumStacks(items, typeId) + FromItemsSlots(items, typeId)
  }

  /** The items of an inventory that may be null; a null inventory has none. */
  function ItemsOf(inv: Option<Inventory>): seq<Item> {
    match inv
    case None => []
    case Some(i) => Items(i)
  }

  /** The count of an inventory; a null inventory holds nothing. */
  function FromInventory(inv: Option<Inventory>, typeId: int): (r: int)
    ensures inv.None? ==> r == 0
    ensures r == FromList(ItemsOf(inv), typeId)
  {
    match inv
    case None => 0
    case Some(i) => FromList(Items(i), typeId)
  }

  /** Counting a list split in two gives the sum of the two counts. */
  lemma FromListAppend(a: seq<Item>, b: seq<Item>, typeId: int)
    ensures FromList(a + b, typeId) == FromList(a, typeId) + FromList(b, typeId)
  {
    SumStacksAppend(a, b, typeId);
    SlotContentsAppend(a, b);
    SumStacksAppend(SlotContents(a), SlotContents(b), typeId);
  }

  /** A single item counts its own stack when it is of the type, plus its slot contents of the type. */
  lemma FromListSingle(it: Item, typeId: int)
    ensures FromList([it], typeId) ==
      (if it.typeId == typeId then it.stackCount else 0) + SumStacks(Contents(it), typeId)
  {
    SumStacksSingle(it, typeId);
    FromItemsSlotsSingle(it, typeId);
  }

  /**
   The snapshot taken just before the storage is destroyed. Without a live storage or its content list
   the previous snapshot stays; otherwise it becomes the storage's items followed by their slot contents.
   */
  function ClonePlayerStorage(live: Option<Inventory>, previous: seq<Item>): (r: seq<Item>)
    ensures (live.None? || live.value.content.None?) ==> r == previous
    ensures live.Some? && live.value.content.Some? ==>
      forall x :: x in r <==> x in Items(live.value) || exists it :: it in Items(live.value) && x in Contents(it)
  {
    if live.None? || live.value.content.None? then previous
    else Items(live.value) + SlotContents(Items(live.value))
  }

  /**
   Once the storage is gone, its count comes from the snapshot, and counting the snapshot counts every
   slotted item twice, once as a listed item and once as a slot content, and adds the contents of those
   items' own slots.
   */
  lemma CloneCount(live: Option<Inventory>, previous: seq<Item>, typeId: int)
    requires live.Some? && live.value.content.Some?
    ensures InPlayerStorage(None, ClonePlayerStorage(live, previous), typeId)
      == InPlayerStorage(live, previous, typeId)
         + FromItemsSlots(Items(live.value), typeId)
         + FromItemsSlots(SlotContents(Items(live.value)), typeId)
  {
    var t := Items(live.value);
    FromListAppend(t, SlotContents(t), typeId);
  }

  /** A storage holding one bag with three of item 5 in its slot counts 3 live and 6 from the snapshot. */
  lemma CloneCountExample()
    ensures var bag := Item(2, 1, Some([Some(Item(5, 3, None))]));
      var live := Some(Inventory(Some([Some(bag)])));
      InPlayerStorage(live, [], 5) == 3 && InPlayerStorage(None, ClonePlayerStorage(live, []), 5) == 6
  {
    var inner := Item(5, 3, None);
    var bag := Item(2, 1, Some([Some(inner)]));
    var live := Some(Inventory(Some([Some(bag)])));
    assert Items(live.value) == [bag];
    assert Contents(bag) == [inner];
    assert SlotContents([bag]) == [inner];
    assert SlotContents([inner]) == [];
    assert FromInventory(live, 5) == 3;
    CloneCount(live, [], 5);
  }

  /** The storage count: the live storage when there is one, otherwise the snapshot list. */
  function InPlayerStorage(live: Option<Inventory>, snapshot: seq<Item>, typeId: int): (r: int)
    ensures live.Some? ==> r == FromList(Items(live.value), typeId)
    ensures live.None? ==> r == FromList(snapshot, typeId)
  {
    if live.None? then FromList(snapshot, typeId) else FromInventory(live, typeId)
  }

  /** While the storage exists the snapshot plays no part in its count. */
  lemma StorageIgnoresSnapshot(live: Option<Inventory>, s: seq<Item>, s': seq<Item>, typeId: int)
    requires live.Some?
    ensures InPlayerStorage(live, s, typeId) == InPlayerStorage(live, s', typeId)
  {
  }

  /**
   Character, pet and storage together: the count of the three item lists taken as one list, with the
   snapshot standing in for a storage that is gone.
   */
  function GetTotalItemAmount(character: Option<Inventory>, pet: Option<Inventory>, storage: Option<Inventory>,
                              snapshot: seq<Item>, typeId: int): (r: int)
    ensures r == FromList(ItemsOf(character) + ItemsOf(pet) + (if storage.Some? then ItemsOf(storage) else snapshot), typeId)
  {
    var stored := if storage.Some? then ItemsOf(storage) else snapshot;
    FromListAppend(ItemsOf(character), ItemsOf(pet), typeId);
    FromListAppend(ItemsOf(character) + ItemsOf(pet), stored, typeId);
    FromInventory(character, typeId) + FromInventory(pet, typeId) + InPlayerStorage(storage, snapshot, typeId)
  }
}

=== FILE: localized_text.dfy ===
/**
 The mod's own UI strings: a table keyed by "<base key>_<language suffix>", and a lookup that maps
 the game's current language to a suffix, falls back to empty text for a missing entry and can put
 a line break in front.
 */
module LocalizedText {

  /** The game's current language; every language without its own entry is `OtherLanguage`. */
  datatype Language =
    | Chinese
    | ChineseSimplified
    | ChineseTraditional
    | Japanese
    | Korean
    | OtherLanguage(name: string)

  /** The suffix a language reads its entries under. */
  function Suffix(lang: Language): (r: string)
    ensures r in Suffixes
    ensures lang.OtherLanguage? <==> r == "Default"
  {
    match lang
    case Chinese => "ChineseSimplified"
    case ChineseSimplified => "ChineseSimplified"
    case ChineseTraditional => "ChineseTraditional"
    case Japanese => "Japanese"
    case Korean => "Korean"
    case OtherLanguage(_) => "Default"
  }

  const Suffixes: seq<string> := ["ChineseSimplified", "ChineseTraditional", "Japanese", "Korean", "Default"]

  const BaseKeys: seq<string> := [
    "GetRequiredQuestText", "GetRequiredSubmittingQuestText", "GetRequiredPerkText",
    "GetRequiredBuildingText", "totalRequiredItemCount", "pressShift"]

  /** The table key "<base>_<suffix>". */
  function Entry(base: string, suffix: string): string {
    base + "_" + suffix
  }

  const Dic: map<string, string> := map[
    Entry("GetRequiredQuestText", "ChineseSimplified") := "需要准备该物品的任务:",
    Entry("GetRequiredQuestText", "ChineseTraditional") := "需要準備該物品的任務:",
    Entry("GetRequiredQuestText", "Japanese") := "このアイテムが必要なクエスト:",
    Entry("GetRequiredQuestText", "Korean") := "이아이템이 필요한 퀘스트:",
    Entry("GetRequiredQuestText", "Default") := "Quests required this item:",

    Entry("GetRequiredSubmittingQuestText", "ChineseSimplified") := "需要提交该物品的任务:",
    Entry("GetRequiredSubmittingQuestText", "ChineseTraditional") := "需要提交該物品的任務:",
    Entry("GetRequiredSubmittingQuestText", "Japanese") := "このアイテム納品が必要なクエスト:",
    Entry("GetRequiredSubmittingQuestText", "Korean") := "이아이템 재출이 필요한 퀘스트:",
    Entry("GetRequiredSubmittingQuestText", "Default") := "Quests required submit this item:",

    Entry("GetRequiredPerkText", "ChineseSimplified") := "需要该物品解锁的天赋:",
    Entry("GetRequiredPerkText", "ChineseTraditional") := "需要該物品解鎖的天賦:",
    Entry("GetRequiredPerkText", "Japanese") := "このアイテムが必要なスキル:",
    Entry("GetRequiredPerkText", "Korean") := "이 아이템이 필요한 스킬:",
    Entry("GetRequiredPerkText", "Default") := "Perks required this item:",

    Entry("GetRequiredBuildingText", "ChineseSimplified") := "需要该物品解锁的建筑:",
    Entry("GetRequiredBuildingText", "ChineseTraditional") := "需要該物品解鎖的建築:",
    Entry("GetRequiredBuildingText", "Japanese") := "このアイテムが必要な建物:",
    Entry("GetRequiredBuildingText", "Korean") := "이 아이템이 필요한 건물:",
    Entry("GetRequiredBuildingText", "Default") := "Buildings required this item:",

    Entry("totalRequiredItemCount", "ChineseSimplified") := "该物品总需求个数:",
    Entry("totalRequiredItemCount", "ChineseTraditional") := "該物品總需求個數:",
    Entry("totalRequiredItemCount", "Japanese") := "このアイテムの合計必要数:",
    Entry("totalRequiredItemCount", "Korean") := "이 아이템의 필요 개수:",
    Entry("totalRequiredItemCount", "Default") := "Total required amount of this item:",

    Entry("pressShift", "ChineseSimplified") := "按下 Shift",
    Entry("pressShift", "ChineseTraditional") := "按下 Shift",
    Entry("pressShift", "Japanese") := "Shift キーを押して",
    Entry("pressShift", "Korean") := "Shift 를 눌러주세요",
    Entry("pressShift", "Default") := "Press Shift"
  ]

  /** The table key of a base key under a language. */
  function EntryKey(key: string, lang: Language): string {
    Entry(key, Suffix(lang))
  }

  /** The text of `key` in the current language, empty when the table has no entry, after a line break
      when `newLine` is set. */
  function Get(key: string, lang: Language, newLine: bool := true): (r: string)
    ensures EntryKey(key, lang) in Dic && !newLine ==> r == Dic[EntryKey(key, lang)]
    ensures EntryKey(key, lang) !in Dic && !newLine ==> r == ""
    ensures newLine ==> |r| > 0 && r[0] == '\n'
  {
    var text := if EntryKey(key, lang) in Dic then Dic[EntryKey(key, lang)] else "";
    if newLine then "\n" + text else text
  }

  /** Both Chinese language values read the simplified entries. */
  lemma ChineseIsSimplified(key: string, newLine: bool)
    ensures Get(key, Chinese, newLine) == Get(key, ChineseSimplified, newLine)
  {
  }

  /** Every language without its own entries reads the default entry. */
  lemma OthersReadDefault(key: string, name: string, newLine: bool)
    ensures Get(key, OtherLanguage(name), newLine) == Get(key, OtherLanguage("English"), newLine)
    ensures !newLine && key + "_Default" in Dic ==> Get(key, OtherLanguage(name), newLine) == Dic[key + "_Default"]
  {
    assert EntryKey(key, OtherLanguage(name)) == key + "_Default";
  }

  /** The line break is the only difference the flag makes, and it is there unless asked away. */
  lemma NewLinePrefix(key: string, lang: Language)
    ensures Get(key, lang) == Get(key, lang, true) == "\n" + Get(key, lang, false)
  {
  }

  /** Every base key has an entry under every suffix, so no language sees an empty text for them. */
  lemma BaseKeysComplete(key: string, lang: Language)
    requires key in BaseKeys
    ensures EntryKey(key, lang) in Dic
    ensures |Get(key, lang, false)| > 0
  {
    SuffixComplete(key, Suffix(lang));
  }

  /** The five entries of one base key. */
  lemma SuffixComplete(key: string, x: string)
    requires key in BaseKeys && x in Suffixes
    ensures Entry(key, x) in Dic && |Dic[Entry(key, x)]| > 0
  {
    if key == BaseKeys[0] {
    } else if key == BaseKeys[1] {
    } else if key == BaseKeys[2] {
    } else if key == BaseKeys[3] {
    } else if key == BaseKeys[4] {
    } else {
    }
  }
}

=== FILE: quest_universe.dfy ===
/**
 The filtered quest universe (`TotalQuests`): every non-null quest of the game's collection, in
 order, except unimplemented quests (level gate at or above 999), every quest that descends from one
 of them through the quest relation table, and quests with a testing name.
 */
module QuestUniverse {
  import opened Wrappers
  import opened Domain
  import opened Seqs

  /** The parents the relation table lists for a quest: none when there is no table, and none when
      the table has no row for the quest. */
  function ParentIds(relation: Option<map<int, seq<int>>>, questId: int): (r: seq<int>)
    ensures relation.None? ==> r == []
    ensures forall p :: p in r <==> relation.Some? && questId in relation.value && p in relation.value[questId]
  {
    match relation
    case None => []
    case Some(m) => if questId in m then m[questId] else []
  }

  /** The children recorded for `id`; an id with no entry has none. */
  function ChildrenOf(children: map<int, seq<int>>, id: int): seq<int> {
    if id in children then children[id] else []
  }

  /** `child` is a child of `parent`: some quest with id `child` lists `parent` among its parents. */
  ghost predicate IsChildEdge(quests: seq<Quest>, relation: Option<map<int, seq<int>>>, parent: int, child: int) {
    exists q :: q in quests && q.id == child && parent in ParentIds(relation, q.id)
  }

  /** Records `child` under each of `parents` (once per occurrence, as a list append does). */
  function AddChild(m: map<int, seq<int>>, parents: seq<int>, child: int): (r: map<int, seq<int>>)
    ensures forall p, c :: c in ChildrenOf(r, p) <==> c in ChildrenOf(m, p) || (c == child && p in parents)
    decreases |parents|
  {
    if |parents| == 0 then m
    else
      var p := parents[0];
      AddChild(m[p := ChildrenOf(m, p) + [child]], parents[1..], child)
  }

  /** The parent-to-children map the first pass over the quests builds. */
  function ChildrenMap(quests: seq<Quest>, relation: Option<map<int, seq<int>>>): (r: map<int, seq<int>>)
    ensures forall p, c :: c in ChildrenOf(r, p) <==> IsChildEdge(quests, relation, p, c)
    decreases |quests|
  {
    if |quests| == 0 then map[]
    else
      var last := quests[|quests| - 1];
      var prefix := quests[..|quests| - 1];
      var r := AddChild(ChildrenMap(prefix, relation), ParentIds(relation, last.id), last.id);
      assert forall q :: q in quests <==> q in prefix || q == last by {
        assert quests == prefix + [last];
      }
      r
  }

  /** Ids of the unimplemented quests: those whose level gate is at or above the threshold. */
  function SeedIds(quests: seq<Quest>): set<int> {
    set q | q in quests && q.requireLevel >= UnimplementedLevelRequirement :: q.id
  }

  /** Every id that occurs as somebody's child. */
  function AllChildren(children: map<int, seq<int>>): set<int> {
    set p, c | p in children && c in children[p] :: c
  }

  /** A non-empty chain of ids, each one a recorded child of the one before. */
  ghost predicate IsChain(children: map<int, seq<int>>, path: seq<int>) {
    |path| > 0 && forall k :: 0 <= k < |path| - 1 ==> path[k + 1] in ChildrenOf(children, path[k])
  }

  /** `id` is a seed or a descendant of one. */
  ghost predicate Reachable(children: map<int, seq<int>>, seeds: set<int>, id: int) {
    exists path {:trigger IsChain(children, path)} :: IsChain(children, path) && path[0] in seeds && path[|path| - 1] == id
  }

  /** The quest `id` is shut out of the universe: it is unimplemented or descends from a quest that is. */
  ghost predicate Excluded(quests: seq<Quest>, relation: Option<map<int, seq<int>>>, id: int) {
    Reachable(ChildrenMap(quests, relation), SeedIds(quests), id)
  }

  function Elems(s: seq<int>): set<int> {
    set x | x in s
  }

  ghost predicate Distinct(s: seq<int>) {
    forall i, j :: 0 <= i < j < |s| ==> s[i] != s[j]
  }

  lemma DistinctAppend(s: seq<int>, t: seq<int>)
    requires Distinct(s) && Distinct(t) && Elems(s) !! Elems(t)
    ensures Distinct(s + t) && Elems(s + t) == Elems(s) + Elems(t)
  {
    forall i, j | 0 <= i < j < |s + t|
      ensures (s + t)[i] != (s + t)[j]
    {
      if j >= |s| && i < |s| {
        assert (s + t)[i] in Elems(s);
        assert (s + t)[j] in Elems(t);
      }
    }
  }

  /** Appending a newly marked child and the ids its own expansion marked keeps the trace exact. */
  lemma TraceStep(expanded: seq<int>, c: int, below: seq<int>, before: set<int>, mid: set<int>, after: set<int>)
    requires Distinct(expanded) && Elems(expanded) == mid - before && before <= mid && c !in mid
    requires Distinct(below) && Elems(below) == after - (mid + {c}) && mid + {c} <= after
    ensures Distinct(expanded + [c] + below) && Elems(expanded + [c] + below) == after - before
  {
    DistinctAppend(expanded, [c]);
    DistinctAppend(expanded + [c], below);
  }

  /** Two traces of successive growth steps join into the trace of the whole growth. */
  lemma TraceJoin(t: seq<int>, u: seq<int>, low: set<int>, mid: set<int>, high: set<int>)
    requires Distinct(t) && Elems(t) == mid - low && low <= mid
    requires Distinct(u) && Elems(u) == high - mid && mid <= high
    ensures Distinct(t + u) && Elems(t + u) == high - low
  {
    DistinctAppend(t, u);
  }

  /** `path` witnesses that `y` is a seed or a descendant of one. */
  ghost predicate ChainTo(children: map<int, seq<int>>, seeds: set<int>, path: seq<int>, y: int) {
    IsChain(children, path) && path[0] in seeds && path[|path| - 1] == y
  }

  /** Every marked id carries a witness chain in `via`. */
  ghost predicate Witnessed(children: map<int, seq<int>>, seeds: set<int>, marked: set<int>, via: map<int, seq<int>>) {
    forall y {:trigger y in via} :: y in marked ==> y in via && ChainTo(children, seeds, via[y], y)
  }

  /** Every child of `y` is marked. */
  ghost predicate ChildrenMarked(children: map<int, seq<int>>, y: int, marked: set<int>) {
    forall c :: c in ChildrenOf(children, y) ==> c in marked
  }

  lemma SubsetCard(a: set<int>, b: set<int>)
    requires a <= b
    ensures |a| <= |b|
  {
    assert b == a + (b - a);
    assert a * (b - a) == {};
  }

  /** Marking a batch of new ids inside `u` that holds `c` shrinks the part of `u` still unmarked. */
  lemma GapShrinks(u: set<int>, e: set<int>, added: set<int>, c: int)
    requires c in added && added !! e && e + added <= u
    ensures |u - (e + added)| < |u - e|
  {
    SubsetCard(u - (e + added), u - (e + {c}));
    assert u - e == (u - (e + {c})) + {c};
  }

  lemma ExtendChain(children: map<int, seq<int>>, seeds: set<int>, path: seq<int>, x: int, c: int)
    requires ChainTo(children, seeds, path, x) && c in ChildrenOf(children, x)
    ensures ChainTo(children, seeds, path + [c], c)
  {
  }

  lemma MarkedGrows(children: map<int, seq<int>>, s: set<int>, a: set<int>, b: set<int>)
    requires a <= b
    requires forall y :: y in s ==> ChildrenMarked(children, y, a)
    ensures forall y :: y in s ==> ChildrenMarked(children, y, b)
  {
  }

  /** A set that holds the seeds and is closed under children holds every reachable id. */
  lemma {:induction false} ClosedSetHoldsReachable(children: map<int, seq<int>>, seeds: set<int>, s: set<int>, path: seq<int>)
    requires seeds <= s
    requires forall x :: x in s ==> forall c :: c in ChildrenOf(children, x) ==> c in s
    requires IsChain(children, path) && path[0] in seeds
    ensures path[|path| - 1] in s
    decreases |path|
  {
    if |path| > 1 {
      var front := path[..|path| - 1];
      assert IsChain(children, front);
      ClosedSetHoldsReachable(children, seeds, s, front);
      assert path[|path| - 1] in ChildrenOf(children, front[|front| - 1]);
    }
  }

  /** The first pass: marks every unimplemented quest and lists each marked id once. */
  method MarkUnimplemented(quests: seq<Quest>) returns (marked: set<int>, pending: seq<int>)
    ensures marked == SeedIds(quests) && marked == Elems(pending)
    ensures Distinct(pending)
  {
    marked := {};
    pending := [];
    var i := 0;
    while i < |quests|
      invariant 0 <= i <= |quests|
      invariant marked == SeedIds(quests[..i]) && marked == Elems(pending)
      invariant Distinct(pending)
    {
      var q := quests[i];
      assert quests[..i + 1] == quests[..i] + [q];
      if q.requireLevel >= UnimplementedLevelRequirement && q.id !in marked {
        DistinctAppend(pending, [q.id]);
        marked := marked + {q.id};
        pending := pending + [q.id];
      }
      i := i + 1;
    }
    assert quests[..i] == quests;
  }

  /**
   Marks every child of `questId` and recurses into a child only when it was not marked before (the
   `HashSet.Add` guard). The unmarked part of `universe` shrinks with every recursive call, so the
   recursion ends and expands each id at most once, whatever diamonds or cycles the relation holds.
   On return every child of `questId`, and every child of every id this call marked, is marked;
   `expanded` lists the ids the call recursed into, each once, and they are exactly the ids it marked.
   */
  method ExcludeChildren(
    children: map<int, seq<int>>, ghost seeds: set<int>, ghost universe: set<int>,
    questId: int, excluded: set<int>, ghost via: map<int, seq<int>>)
    returns (excluded': set<int>, ghost via': map<int, seq<int>>, ghost expanded: seq<int>)
    requires questId in excluded && excluded <= universe && AllChildren(children) <= universe
    requires Witnessed(children, seeds, excluded, via)
    ensures excluded <= excluded' <= universe
    ensures Witnessed(children, seeds, excluded', via')
    ensures ChildrenMarked(children, questId, excluded')
    ensures forall y :: y in excluded' - excluded ==> ChildrenMarked(children, y, excluded')
    ensures Distinct(expanded) && Elems(expanded) == excluded' - excluded
    decreases |universe - excluded|
  {
    excluded', via', expanded := excluded, via, [];
    var kids := ChildrenOf(children, questId);
    var j := 0;
    while j < |kids|
      invariant 0 <= j <= |kids|
      invariant excluded <= excluded' <= universe
      invariant Witnessed(children, seeds, excluded', via')
      invariant forall k :: 0 <= k < j ==> kids[k] in excluded'
      invariant forall y :: y in excluded' - excluded ==> ChildrenMarked(children, y, excluded')
      invariant Distinct(expanded) && Elems(expanded) == excluded' - excluded
    {
      var c := kids[j];
      if c !in excluded' {
        assert c in children[questId];
        ExtendChain(children, seeds, via'[questId], questId, c);
        GapShrinks(universe, excluded, excluded' + {c} - excluded, c);
        assert excluded + (excluded' + {c} - excluded) == excluded' + {c};
        var grown, grownVia, below := ExcludeChildren(
          children, seeds, universe, c, excluded' + {c}, via'[c := via'[questId] + [c]]);
        MarkedGrows(children, excluded' - excluded, excluded', grown);
        TraceStep(expanded, c, below, excluded, excluded', grown);
        excluded', via', expanded := grown, grownVia, expanded + [c] + below;
      }
      j := j + 1;
    }
  }

  /** Each seed is witnessed by the one-element chain holding it. */
  lemma SeedsWitnessed(children: map<int, seq<int>>, seeds: set<int>)
    ensures Witnessed(children, seeds, seeds, map y | y in seeds :: [y])
  {
    var via: map<int, seq<int>> := map y | y in seeds :: [y];
    forall y | y in seeds
      ensures y in via && ChainTo(children, seeds, via[y], y)
    {
      assert via[y] == [y];
    }
  }

  /** Every marked id other than a seed still waiting in `pending` has all its children marked. */
  ghost predicate ClosedBut(children: map<int, seq<int>>, pending: set<int>, marked: set<int>) {
    forall y :: y in marked && y !in pending ==> ChildrenMarked(children, y, marked)
  }

  /** Expanding the waiting seed `s` closes it and every id the expansion marked. */
  lemma ExpandStep(children: map<int, seq<int>>, pending: set<int>, s: int, before: set<int>, after: set<int>)
    requires before <= after
    requires ClosedBut(children, pending, before)
    requires ChildrenMarked(children, s, after)
    requires forall y :: y in after - before ==> ChildrenMarked(children, y, after)
    ensures ClosedBut(children, pending - {s}, after)
  {
    ghost var closedBefore := set y | y in before && y !in pending;
    MarkedGrows(children, closedBefore, before, after);
  }

  /**
   A marked set that holds the seeds, is closed under children and witnesses each of its ids holds
   exactly the reachable ids.
   */
  lemma ExactlyReachable(children: map<int, seq<int>>, seeds: set<int>, marked: set<int>, via: map<int, seq<int>>)
    requires seeds <= marked
    requires ClosedBut(children, {}, marked)
    requires Witnessed(children, seeds, marked, via)
    ensures forall id :: id in marked <==> Reachable(children, seeds, id)
  {
    forall id | Reachable(children, seeds, id)
      ensures id in marked
    {
      var path :| IsChain(children, path) && path[0] in seeds && path[|path| - 1] == id;
      ClosedSetHoldsReachable(children, seeds, marked, path);
    }
    forall id | id in marked
      ensures Reachable(children, seeds, id)
    {
      assert ChainTo(children, seeds, via[id], id);
    }
  }

  /**
   Expands each id of `seedList` in turn; the result is every id reachable from one of them. `trace`
   concatenates the ids each expansion recursed into: each id beyond the seeds is expanded exactly once.
   */
  method ExpandAll(children: map<int, seq<int>>, seedList: seq<int>) returns (excluded: set<int>, ghost trace: seq<int>)
    ensures forall id :: id in excluded <==> Reachable(children, Elems(seedList), id)
    ensures Distinct(trace) && Elems(trace) == excluded - Elems(seedList)
  {
    ghost var seeds := Elems(seedList);
    ghost var universe := seeds + AllChildren(children);
    ghost var via: map<int, seq<int>> := map y | y in seeds :: [y];
    excluded := Elems(seedList);
    trace := [];
    SeedsWitnessed(children, seeds);
    ghost var done: set<int> := {};
    var i := 0;
    while i < |seedList|
      invariant 0 <= i <= |seedList|
      invariant seeds <= excluded <= universe
      invariant Witnessed(children, seeds, excluded, via)
      invariant done == Elems(seedList[..i])
      invariant ClosedBut(children, seeds - done, excluded)
      invariant Distinct(trace) && Elems(trace) == excluded - seeds
    {
      ghost var before := excluded;
      ghost var expanded;
      excluded, via, expanded := ExcludeChildren(children, seeds, universe, seedList[i], excluded, via);
      ExpandStep(children, seeds - done, seedList[i], before, excluded);
      TraceJoin(trace, expanded, seeds, before, excluded);
      trace := trace + expanded;
      assert seedList[..i + 1] == seedList[..i] + [seedList[i]];
      done := done + {seedList[i]};
      i := i + 1;
    }
    assert seedList[..i] == seedList;
    ExactlyReachable(children, seeds, excluded, via);
  }

  /**
   The descendant closure of the unimplemented quests in two passes: mark them, then expand each in
   turn. The result is exactly the set of ids reachable from an unimplemented quest, and no id is
   expanded twice.
   */
  method ExcludeDescendants(children: map<int, seq<int>>, quests: seq<Quest>) returns (excluded: set<int>, ghost trace: seq<int>)
    ensures forall id :: id in excluded <==> Reachable(children, SeedIds(quests), id)
    ensures Distinct(trace) && Elems(trace) == excluded - SeedIds(quests)
  {
    var marked, seedList := MarkUnimplemented(quests);
    excluded, trace := ExpandAll(children, seedList);
  }

  /** The quests that survive both exclusion rules, in collection order. */
  function KeepQuests(quests: seq<Quest>, excluded: set<int>): (r: seq<Quest>)
    ensures IsSublist(r, quests)
    ensures forall q :: q in r <==> q in quests && q.id !in excluded && !IsTestingName(q.displayName)
    decreases |quests|
  {
    if |quests| == 0 then []
    else
      var rest := KeepQuests(quests[1..], excluded);
      assert forall q :: q in quests <==> q == quests[0] || q in quests[1..] by {
        assert quests == [quests[0]] + quests[1..];
      }
      if quests[0].id !in excluded && !IsTestingName(quests[0].displayName) then [quests[0]] + rest
      else rest
  }

  /**
   Builds `TotalQuests` from the game's quest collection and relation table: the non-null quests, in
   order, that are neither excluded through the quest graph nor testing-named.
   */
  method InitTotalQuests(collection: seq<Option<Quest>>, relation: Option<map<int, seq<int>>>)
    returns (total: seq<Quest>)
    ensures IsSublist(total, NonNull(collection))
    ensures forall q :: q in total <==>
      && q in NonNull(collection)
      && !Excluded(NonNull(collection), relation, q.id)
      && !IsTestingName(q.displayName)
  {
    var quests := NonNull(collection);
    var children := ChildrenMap(quests, relation);
    var excluded;
    ghost var trace;
    excluded, trace := ExcludeDescendants(children, quests);
    total := KeepQuests(quests, excluded);
  }
}

=== FILE: requirement_cache.dfy ===
/**
 The per-item snapshot cache behind the public requirement queries: a map from item type to snapshot
 and a dirty flag. Every game-state change arrives as a notification whose handler marks the cache
 dirty (the level-ready handler also registers per-perk listeners); the next `Ensure` then drops every
 entry and rebuilds from the current state.
 */
module RequirementCache {
  import opened Wrappers
  import opened Domain
  import opened Requirements

  datatype Cache = Cache(entries: map<int, Snapshot>, dirty: bool)

  /** The cache starts dirty, so the first lookup starts from an empty map. */
  const InitialCache: Cache := Cache(map[], true)

  /** A clean cache holds, for each item type it has, exactly the snapshot the given state yields;
      only positive item types are ever cached. */
  ghost predicate Fresh(c: Cache, st: GameState) {
    && (forall k :: k in c.entries ==> k > 0)
    && (!c.dirty ==> forall k :: k in c.entries ==> c.entries[k] == BuildSnapshot(st, k))
  }

  /**
   Makes sure the item type has an entry. A non-positive id changes nothing; a dirty cache is emptied
   and marked clean first; an entry already present is kept, never rebuilt.
   */
  function Ensure(c: Cache, st: GameState, itemTypeId: int): (r: Cache)
    ensures itemTypeId <= 0 ==> r == c
    ensures itemTypeId > 0 ==> !r.dirty && itemTypeId in r.entries
    ensures itemTypeId > 0 && c.dirty ==> r.entries.Keys == {itemTypeId}
    ensures itemTypeId > 0 && !c.dirty ==>
      && r.entries.Keys == c.entries.Keys + {itemTypeId}
      && forall k :: k in c.entries ==> r.entries[k] == c.entries[k]
    ensures itemTypeId > 0 && !c.dirty && itemTypeId in c.entries ==> r == c
    ensures Fresh(c, st) ==> Fresh(r, st) && (itemTypeId > 0 ==> r.entries[itemTypeId] == BuildSnapshot(st, itemTypeId))
  {
    if itemTypeId <= 0 then c
    else
      var cleared := if c.dirty then Cache(map[], false) else c;
      if itemTypeId in cleared.entries then cleared
      else Cache(cleared.entries[itemTypeId := BuildSnapshot(st, itemTypeId)], false)
  }

  /** The copy a getter returns: the cached snapshot, or empty lists when the id has no entry. */
  function Lookup(c: Cache, itemTypeId: int): (r: Snapshot)
    ensures itemTypeId !in c.entries ==> r == EmptySnapshot
    ensures itemTypeId in c.entries ==> r == c.entries[itemTypeId]
  {
    if itemTypeId in c.entries then c.entries[itemTypeId] else EmptySnapshot
  }

  /** Marks the cache dirty and leaves its entries for the next `Ensure` to drop. */
  function Invalidate(c: Cache): (r: Cache)
    ensures r.dirty && r.entries == c.entries
    ensures forall st :: Fresh(r, st) <==> forall k :: k in c.entries ==> k > 0
  {
    Cache(c.entries, true)
  }

  lemma InvalidateIdempotent(c: Cache)
    ensures Invalidate(Invalidate(c)) == Invalidate(c)
  {
  }

  /** The host notifications the cache listens to. */
  datatype Notification =
    | QuestListsChanged
    | QuestTaskFinished
    | QuestChanged
    | BuildingListChanged
    | PerkUnlockStateChanged
    | PerkUnlockConfirmed
    | PerkTreeStatusChanged
    | LevelReady

  /** The cache together with whether per-perk listeners are registered on the current level. */
  datatype Listener = Listener(cache: Cache, perkEventsRegistered: bool)

  /** Every handler invalidates and does nothing else; the level-ready handler first registers the
      per-perk listeners of the newly loaded level. */
  function Handle(l: Listener, n: Notification): (r: Listener)
    ensures r.cache == Invalidate(l.cache)
    ensures r.perkEventsRegistered == (l.perkEventsRegistered || n == LevelReady)
  {
    match n
    case LevelReady => Listener(Invalidate(l.cache), true)
    case _ => Listener(Invalidate(l.cache), l.perkEventsRegistered)
  }

  /** After any notification the next lookup of a positive id is rebuilt from the state of that moment. */
  lemma RebuildAfterNotification(l: Listener, n: Notification, st: GameState, itemTypeId: int)
    requires itemTypeId > 0
    ensures Ensure(Handle(l, n).cache, st, itemTypeId).entries == map[itemTypeId := BuildSnapshot(st, itemTypeId)]
  {
  }

  /** The game state and the listener the queries run against. */
  datatype Index = Index(state: GameState, listener: Listener)

  ghost predicate Coherent(x: Index) {
    Fresh(x.listener.cache, x.state)
  }

  /** A game-state change, delivered together with the notification the host raises for it. */
  function Mutate(x: Index, newState: GameState, n: Notification): (r: Index)
    ensures r.state == newState
    ensures Coherent(x) ==> Coherent(r)
  {
    Index(newState, Handle(x.listener, n))
  }

  /** The public entry point that only warms the cache. */
  function EnsureItemRequirements(x: Index, itemTypeId: int): (r: Index)
    ensures r.state == x.state
    ensures itemTypeId <= 0 ==> r == x
    ensures r.listener.perkEventsRegistered == x.listener.perkEventsRegistered
    ensures itemTypeId > 0 ==> !r.listener.cache.dirty && itemTypeId in r.listener.cache.entries
    ensures Coherent(x) ==> Coherent(r)
    ensures Coherent(x) && itemTypeId > 0 ==> r.listener.cache.entries[itemTypeId] == BuildSnapshot(x.state, itemTypeId)
  {
    if itemTypeId <= 0 then x
    else Index(x.state, Listener(Ensure(x.listener.cache, x.state, itemTypeId), x.listener.perkEventsRegistered))
  }

  /**
   What every public query does: nothing for a null item; otherwise `Ensure` the item's type and read
   its entry. On a coherent index the answer is the snapshot of the current state.
   */
  function Query(x: Index, item: Option<Item>): (r: (Index, Snapshot))
    ensures r.0.state == x.state
    ensures item.None? ==> r == (x, EmptySnapshot)
    ensures Coherent(x) ==> Coherent(r.0)
    ensures Coherent(x) && item.Some? && item.value.typeId > 0 ==> r.1 == BuildSnapshot(x.state, item.value.typeId)
    ensures Coherent(x) && item.Some? && item.value.typeId <= 0 ==> r.1 == EmptySnapshot
  {
    match item
    case None => (x, EmptySnapshot)
    case Some(it) =>
      var y := EnsureItemRequirements(x, it.typeId);
      (y, Lookup(y.listener.cache, it.typeId))
  }

  /** Asking twice in a row gives the same answer and leaves the cache as the first ask left it. */
  lemma QueryStable(x: Index, item: Option<Item>)
    ensures Query(Query(x, item).0, item) == Query(x, item)
  {
  }

  function GetRequiredQuests(x: Index, item: Option<Item>): (r: (Index, seq<Quest>))
    ensures Coherent(x) ==> Coherent(r.0)
    ensures item.None? ==> r.1 == []
    ensures Coherent(x) && item.Some? && item.value.typeId > 0 ==>
      r.1 == ComputePrepared(x.state.totalQuests, x.state.historyIds, item.value.typeId)
  {
    var (y, s) := Query(x, item);
    (y, s.prepared)
  }

  function GetRequiredSubmitItems(x: Index, item: Option<Item>): (r: (Index, seq<TaskRequirement>))
    ensures Coherent(x) ==> Coherent(r.0)
    ensures item.None? ==> r.1 == []
    ensures Coherent(x) && item.Some? && item.value.typeId > 0 ==>
      r.1 == ComputeTaskRequirements(x.state, Submit, item.value.typeId)
  {
    var (y, s) := Query(x, item);
    (y, s.submit)
  }

  function GetRequiredUseItems(x: Index, item: Option<Item>): (r: (Index, seq<TaskRequirement>))
    ensures Coherent(x) ==> Coherent(r.0)
    ensures item.None? ==> r.1 == []
    ensures Coherent(x) && item.Some? && item.value.typeId > 0 ==>
      r.1 == ComputeTaskRequirements(x.state, Use, item.value.typeId)
  {
    var (y, s) := Query(x, item);
    (y, s.use)
  }

  function GetRequiredPerkEntries(x: Index, item: Option<Item>): (r: (Index, seq<RequiredPerk>))
    ensures Coherent(x) ==> Coherent(r.0)
    ensures item.None? ==> r.1 == []
    ensures Coherent(x) && item.Some? && item.value.typeId > 0 ==> r.1 == ComputePerks(x.state, item.value.typeId)
  {
    var (y, s) := Query(x, item);
    (y, s.perks)
  }

  function GetRequiredBuildings(x: Index, item: Option<Item>): (r: (Index, seq<RequiredBuilding>))
    ensures Coherent(x) ==> Coherent(r.0)
    ensures item.None? ==> r.1 == []
    ensures Coherent(x) && item.Some? && item.value.typeId > 0 ==> r.1 == ComputeBuildings(x.state, item.value.typeId)
  {
    var (y, s) := Query(x, item);
    (y, s.buildings)
  }

  /** The index the program starts with is coherent whatever the state. */
  lemma InitialCoherent(st: GameState, registered: bool)
    ensures Coherent(Index(st, Listener(InitialCache, registered)))
  {
  }

  /**
   Why every change must come with a notification: a clean cache built from one state answers wrongly
   once the state changes silently. Item 7 is prepared for quest 1 before the change and for nothing after.
   */
  lemma SilentChangeBreaksCoherence()
    ensures exists x: Index, st: GameState :: Coherent(x) && !Coherent(Index(st, x.listener))
  {
    var q := Quest(1, "q", 1, 7, 1, None);
    var before := GameState([q], {}, None, None, None);
    var after := GameState([], {}, None, None, None);
    var c := Ensure(InitialCache, before, 7);
    var x := Index(before, Listener(c, false));
    assert q in ComputePrepared(before.totalQuests, before.historyIds, 7);
    assert c.entries[7].prepared != BuildSnapshot(after, 7).prepared;
    assert Coherent(x) && !Coherent(Index(after, x.listener));
  }
}

=== FILE: requirements.dfy ===
/**
 The five per-item requirement lists one cache snapshot holds, each a pure function of the game
 state: quests that must be prepared with the item, unfinished submit and use tasks that consume it,
 locked perks and unplaced buildings whose cost lists it.
 */
module Requirements {
  import opened Wrappers
  import opened Domain
  import opened Seqs

  /** Which of the two item-consuming task types a computation collects. */
  datatype TaskKind = Submit | Use

  /** One entry of the submit or use list. `task` is None for an entry of a quest that is not active. */
  datatype TaskRequirement = TaskRequirement(task: Option<Task>, questId: int, questName: string, remaining: int)

  datatype RequiredPerk = RequiredPerk(amount: int, perkTreeName: string, perkName: string)

  datatype RequiredBuilding = RequiredBuilding(amount: int, buildingName: string)

  datatype Snapshot = Snapshot(
    prepared: seq<Quest>,
    submit: seq<TaskRequirement>,
    use: seq<TaskRequirement>,
    perks: seq<RequiredPerk>,
    buildings: seq<RequiredBuilding>)

  /** Perk trees that never count as character progression. */
  const ExcludedPerkTreeIds: set<string> := {"Blueprint", "PerkTree_Farming"}

  /** A building that lists this one among its prerequisites is never reported. */
  const ExcludedBuildingId: string := "PetHouse"

  // ---------------------------------------------------------------- prepared quests

  /** The quests that ask for the item to be prepared and are not finished, in quest-universe order. */
  function ComputePrepared(total: seq<Quest>, history: set<int>, itemTypeId: int): (r: seq<Quest>)
    ensures IsSublist(r, total)
    ensures forall q :: q in r <==> q in total && q.requiredItemId == itemTypeId && q.id !in history
    decreases |total|
  {
    if |total| == 0 then []
    else
      var rest := ComputePrepared(total[1..], history, itemTypeId);
      assert forall q :: q in total <==> q == total[0] || q in total[1..] by {
        assert total == [total[0]] + total[1..];
      }
      if total[0].requiredItemId == itemTypeId && total[0].id !in history then [total[0]] + rest
      else rest
  }

  // ---------------------------------------------------------------- submit and use tasks

  predicate IsKind(t: Task, kind: TaskKind) {
    match kind
    case Submit => t.SubmitItem?
    case Use => t.UseItem?
  }

  /** What an active task still needs: the required amount less the progress, never below zero. */
  function Remaining(t: Task): (r: int)
    requires t.SubmitItem? || t.UseItem?
    ensures r >= 0 && r >= t.required - t.progress
    ensures r == 0 || r == t.required - t.progress
  {
    if t.required - t.progress > 0 then t.required - t.progress else 0
  }

  /** A task of an active quest is reported when it has the kind and item, is unfinished and still needs some. */
  predicate ActiveMatch(t: Task, kind: TaskKind, itemTypeId: int) {
    IsKind(t, kind) && t.itemTypeId == itemTypeId && !t.finished && Remaining(t) > 0
  }

  /** A task of a dormant quest is reported when it has the kind and item and asks for a positive amount. */
  predicate DormantMatch(t: Task, kind: TaskKind, itemTypeId: int) {
    IsKind(t, kind) && t.itemTypeId == itemTypeId && t.required > 0
  }

  function ActiveRecord(q: Quest, t: Task): TaskRequirement
    requires t.SubmitItem? || t.UseItem?
  {
    TaskRequirement(Some(t), q.id, q.displayName, Remaining(t))
  }

  function DormantRecord(q: Quest, t: Task): TaskRequirement
    requires t.SubmitItem? || t.UseItem?
  {
    TaskRequirement(None, q.id, q.displayName, t.required)
  }

  /** `e` is the record of a matching task of a present active quest. */
  ghost predicate FromActive(active: seq<Option<Quest>>, kind: TaskKind, itemTypeId: int, e: TaskRequirement) {
    exists q, t ::
      Some(q) in active && q.tasks.Some? && t in q.tasks.value && ActiveMatch(t, kind, itemTypeId) && e == ActiveRecord(q, t)
  }

  /** `e` is the record of a matching task of a universe quest that is neither finished nor active. */
  ghost predicate FromDormant(
    total: seq<Quest>, history: set<int>, activeIds: set<int>, kind: TaskKind, itemTypeId: int, e: TaskRequirement)
  {
    exists q, t ::
      && q in total && q.id !in history && q.id !in activeIds && q.tasks.Some? && t in q.tasks.value
      && DormantMatch(t, kind, itemTypeId) && e == DormantRecord(q, t)
  }

  /** The entries one active quest contributes, in task order. */
  function ActiveTaskRecords(q: Quest, tasks: seq<Task>, kind: TaskKind, itemTypeId: int): (r: seq<TaskRequirement>)
    ensures forall e :: e in r ==>
      e.task.Some? && e.task.value in tasks && ActiveMatch(e.task.value, kind, itemTypeId) && e == ActiveRecord(q, e.task.value)
    ensures forall t :: t in tasks && ActiveMatch(t, kind, itemTypeId) ==> ActiveRecord(q, t) in r
    decreases |tasks|
  {
    if |tasks| == 0 then []
    else
      var rest := ActiveTaskRecords(q, tasks[1..], kind, itemTypeId);
      assert forall t :: t in tasks <==> t == tasks[0] || t in tasks[1..] by {
        assert tasks == [tasks[0]] + tasks[1..];
      }
      if ActiveMatch(tasks[0], kind, itemTypeId) then [ActiveRecord(q, tasks[0])] + rest else rest
  }

  /** The entries one dormant quest contributes, in task order. The finished flag is not consulted. */
  function DormantTaskRecords(q: Quest, tasks: seq<Task>, kind: TaskKind, itemTypeId: int): (r: seq<TaskRequirement>)
    ensures forall e :: e in r ==> e.task.None? && e.questId == q.id && e.remaining > 0
    ensures forall t :: t in tasks && DormantMatch(t, kind, itemTypeId) ==> DormantRecord(q, t) in r
    ensures forall e :: e in r ==> exists t :: t in tasks && DormantMatch(t, kind, itemTypeId) && e == DormantRecord(q, t)
    decreases |tasks|
  {
    if |tasks| == 0 then []
    else
      var rest := DormantTaskRecords(q, tasks[1..], kind, itemTypeId);
      assert forall t :: t in tasks <==> t == tasks[0] || t in tasks[1..] by {
        assert tasks == [tasks[0]] + tasks[1..];
      }
      if DormantMatch(tasks[0], kind, itemTypeId) then [DormantRecord(q, tasks[0])] + rest else rest
  }

  /** The records of a task list are those of its parts, in order. */
  lemma {:induction false} ActiveTaskRecordsAppend(q: Quest, a: seq<Task>, b: seq<Task>, kind: TaskKind, itemTypeId: int)
    ensures ActiveTaskRecords(q, a + b, kind, itemTypeId)
      == ActiveTaskRecords(q, a, kind, itemTypeId) + ActiveTaskRecords(q, b, kind, itemTypeId)
    decreases |a|
  {
    if |a| == 0 {
      assert a + b == b;
    } else {
      assert (a + b)[0] == a[0];
      assert (a + b)[1..] == a[1..] + b;
      ActiveTaskRecordsAppend(q, a[1..], b, kind, itemTypeId);
    }
  }

  /** A single task of an active quest yields its own record when it matches, and none otherwise. */
  lemma ActiveTaskRecordsSingle(q: Quest, t: Task, kind: TaskKind, itemTypeId: int)
    ensures ActiveTaskRecords(q, [t], kind, itemTypeId) == if ActiveMatch(t, kind, itemTypeId) then [ActiveRecord(q, t)] else []
  {
    assert [t][1..] == [];
  }

  /** The records of a task list are those of its parts, in order. */
  lemma {:induction false} DormantTaskRecordsAppend(q: Quest, a: seq<Task>, b: seq<Task>, kind: TaskKind, itemTypeId: int)
    ensures DormantTaskRecords(q, a + b, kind, itemTypeId)
      == DormantTaskRecords(q, a, kind, itemTypeId) + DormantTaskRecords(q, b, kind, itemTypeId)
    decreases |a|
  {
    if |a| == 0 {
      assert a + b == b;
    } else {
      assert (a + b)[0] == a[0];
      assert (a + b)[1..] == a[1..] + b;
      DormantTaskRecordsAppend(q, a[1..], b, kind, itemTypeId);
    }
  }

  /** A single task of a dormant quest yields its own record when it matches, and none otherwise. */
  lemma DormantTaskRecordsSingle(q: Quest, t: Task, kind: TaskKind, itemTypeId: int)
    ensures DormantTaskRecords(q, [t], kind, itemTypeId) == if DormantMatch(t, kind, itemTypeId) then [DormantRecord(q, t)] else []
  {
    assert [t][1..] == [];
  }

  /** The first pass: every active quest with a task list, in order. */
  function ActivePass(active: seq<Option<Quest>>, kind: TaskKind, itemTypeId: int): (r: seq<TaskRequirement>)
    ensures forall e :: e in r ==> e.task.Some?
    ensures forall e :: e in r <==> FromActive(active, kind, itemTypeId, e)
    decreases |active|
  {
    if |active| == 0 then []
    else
      var rest := ActivePass(active[1..], kind, itemTypeId);
      assert forall x :: x in active <==> x == active[0] || x in active[1..] by {
        assert active == [active[0]] + active[1..];
      }
      match active[0]
      case None => rest
      case Some(q) =>
        match q.tasks
        case None => rest
        case Some(tasks) => ActiveTaskRecords(q, tasks, kind, itemTypeId) + rest
  }

  /** The first pass over a list of active quests is the pass over its parts, in order. */
  lemma {:induction false} ActivePassAppend(a: seq<Option<Quest>>, b: seq<Option<Quest>>, kind: TaskKind, itemTypeId: int)
    ensures ActivePass(a + b, kind, itemTypeId) == ActivePass(a, kind, itemTypeId) + ActivePass(b, kind, itemTypeId)
    decreases |a|
  {
    if |a| == 0 {
      assert a + b == b;
    } else {
      assert (a + b)[0] == a[0];
      assert (a + b)[1..] == a[1..] + b;
      ActivePassAppend(a[1..], b, kind, itemTypeId);
    }
  }

  /** A single active quest yields the records of its task list; a null quest or a null task list yields none. */
  lemma ActivePassSingle(x: Option<Quest>, kind: TaskKind, itemTypeId: int)
    ensures ActivePass([x], kind, itemTypeId)
      == if x.Some? && x.value.tasks.Some? then ActiveTaskRecords(x.value, x.value.tasks.value, kind, itemTypeId) else []
  {
    assert [x][1..] == [];
  }

  /** The ids of the non-null active quests. */
  function ActiveIds(active: seq<Option<Quest>>): set<int> {
    set q | q in NonNull(active) :: q.id
  }

  /** The second pass: quests of the universe that are neither finished nor active, in order. */
  function DormantPass(total: seq<Quest>, history: set<int>, activeIds: set<int>, kind: TaskKind, itemTypeId: int)
    : (r: seq<TaskRequirement>)
    ensures forall e :: e in r ==> e.task.None? && e.remaining > 0 && e.questId !in history && e.questId !in activeIds
    ensures forall e :: e in r <==> FromDormant(total, history, activeIds, kind, itemTypeId, e)
    decreases |total|
  {
    if |total| == 0 then []
    else
      var rest := DormantPass(total[1..], history, activeIds, kind, itemTypeId);
      var q := total[0];
      assert forall x :: x in total <==> x == q || x in total[1..] by {
        assert total == [q] + total[1..];
      }
      if q.id in history || q.id in activeIds || q.tasks.None? then rest
      else DormantTaskRecords(q, q.tasks.value, kind, itemTypeId) + rest
  }

  /** The second pass over a list of quests is the pass over its parts, in order. */
  lemma {:induction false} DormantPassAppend(
    a: seq<Quest>, b: seq<Quest>, history: set<int>, activeIds: set<int>, kind: TaskKind, itemTypeId: int)
    ensures DormantPass(a + b, history, activeIds, kind, itemTypeId)
      == DormantPass(a, history, activeIds, kind, itemTypeId) + DormantPass(b, history, activeIds, kind, itemTypeId)
    decreases |a|
  {
    if |a| == 0 {
      assert a + b == b;
    } else {
      assert (a + b)[0] == a[0];
      assert (a + b)[1..] == a[1..] + b;
      DormantPassAppend(a[1..], b, history, activeIds, kind, itemTypeId);
    }
  }

  /** A single quest yields the records of its task list unless it is finished, active or has no task list. */
  lemma DormantPassSingle(q: Quest, history: set<int>, activeIds: set<int>, kind: TaskKind, itemTypeId: int)
    ensures DormantPass([q], history, activeIds, kind, itemTypeId)
      == if q.id in history || q.id in activeIds || q.tasks.None? then []
         else DormantTaskRecords(q, q.tasks.value, kind, itemTypeId)
  {
    assert [q][1..] == [];
  }

  /** Every entry of the first pass belongs to a non-null active quest. */
  lemma ActiveEntriesAreActive(active: seq<Option<Quest>>, kind: TaskKind, itemTypeId: int)
    ensures forall e :: e in ActivePass(active, kind, itemTypeId) ==> e.questId in ActiveIds(active)
  {
    forall e | e in ActivePass(active, kind, itemTypeId)
      ensures e.questId in ActiveIds(active)
    {
      var q, t :| Some(q) in active && q.tasks.Some? && t in q.tasks.value && ActiveMatch(t, kind, itemTypeId) && e == ActiveRecord(q, t);
      assert q in NonNull(active);
    }
  }

  /**
   Appending a list of task-carrying entries of active quests and a list of task-less entries of other
   quests puts every task-carrying entry first and shares no quest id between the two parts.
   */
  lemma PassesConcat(first: seq<TaskRequirement>, second: seq<TaskRequirement>, activeIds: set<int>)
    requires forall e :: e in first ==> e.task.Some? && e.questId in activeIds
    requires forall e :: e in second ==> e.task.None? && e.questId !in activeIds
    ensures forall i, j :: 0 <= i < j < |first + second| && (first + second)[i].task.None? ==> (first + second)[j].task.None?
    ensures forall i, j ::
      (0 <= i < |first + second| && 0 <= j < |first + second|
       && (first + second)[i].task.Some? && (first + second)[j].task.None?) ==> (first + second)[i].questId != (first + second)[j].questId
  {
    var r := first + second;
    assert forall i :: 0 <= i < |first| ==> r[i] == first[i] && r[i] in first;
    assert forall i :: |first| <= i < |r| ==> r[i] == second[i - |first|] && r[i] in second;
  }

  /**
   The submit (or use) list of an item: entries of active quests, carrying the task and what it still
   needs, followed by entries of the other unfinished quests, carrying the full required amount.
   */
  function ComputeTaskRequirements(st: GameState, kind: TaskKind, itemTypeId: int): (r: seq<TaskRequirement>)
    ensures forall e :: e in r ==> e.remaining > 0
    ensures forall i, j :: 0 <= i < j < |r| && r[i].task.None? ==> r[j].task.None?
    ensures forall i, j :: 0 <= i < |r| && 0 <= j < |r| && r[i].task.Some? && r[j].task.None? ==> r[i].questId != r[j].questId
    ensures forall e :: e in r && e.task.None? ==> e.questId !in st.historyIds
    ensures forall e :: e in r <==>
      || FromActive(st.activeQuests.GetOr([]), kind, itemTypeId, e)
      || FromDormant(st.totalQuests, st.historyIds, ActiveIds(st.activeQuests.GetOr([])), kind, itemTypeId, e)
  {
    var active := st.activeQuests.GetOr([]);
    var first := ActivePass(active, kind, itemTypeId);
    var second := DormantPass(st.totalQuests, st.historyIds, ActiveIds(active), kind, itemTypeId);
    ActiveEntriesAreActive(active, kind, itemTypeId);
    PassesConcat(first, second, ActiveIds(active));
    first + second
  }

  /**
   The list is the first pass followed by the second; with the append and single-element lemmas of the
   passes this fixes every record's multiplicity and position.
   */
  lemma TaskRequirementsPasses(st: GameState, kind: TaskKind, itemTypeId: int)
    ensures var active := st.activeQuests.GetOr([]);
      ComputeTaskRequirements(st, kind, itemTypeId)
        == ActivePass(active, kind, itemTypeId)
           + DormantPass(st.totalQuests, st.historyIds, ActiveIds(active), kind, itemTypeId)
  {
  }

  /** Two different dormant tasks asking for the same amount give two records, one per task, in task order. */
  lemma EqualDormantTasksBothListed()
    ensures var a := SubmitItem(7, 5, 0, false, "a");
      var b := SubmitItem(7, 5, 0, false, "b");
      var q := Quest(1, "Q", 1, 0, 0, Some([a, b]));
      var st := GameState([q], {}, None, None, None);
      ComputeTaskRequirements(st, Submit, 7) == [DormantRecord(q, a), DormantRecord(q, b)]
  {
    var a := SubmitItem(7, 5, 0, false, "a");
    var b := SubmitItem(7, 5, 0, false, "b");
    var q := Quest(1, "Q", 1, 0, 0, Some([a, b]));
    var st := GameState([q], {}, None, None, None);
    assert ActivePass([], Submit, 7) == [];
    DormantTaskRecordsAppend(q, [a], [b], Submit, 7);
    DormantTaskRecordsSingle(q, a, Submit, 7);
    DormantTaskRecordsSingle(q, b, Submit, 7);
    assert [a] + [b] == [a, b];
    DormantPassSingle(q, {}, ActiveIds([]), Submit, 7);
  }

  // ---------------------------------------------------------------- perks and buildings

  /** The amounts of the cost entries for the item, one per entry, in cost-list order. */
  function MatchingAmounts(cost: seq<CostEntry>, itemTypeId: int): (r: seq<int>)
    ensures |r| <= |cost|
    ensures forall a :: a in r <==> CostEntry(itemTypeId, a) in cost
    decreases |cost|
  {
    if |cost| == 0 then []
    else
      var rest := MatchingAmounts(cost[1..], itemTypeId);
      assert forall c :: c in cost <==> c == cost[0] || c in cost[1..] by {
        assert cost == [cost[0]] + cost[1..];
      }
      if cost[0].id == itemTypeId then [cost[0].amount] + rest else rest
  }

  /** Matching distributes over concatenation, so every matching entry yields its own record. */
  lemma {:induction false} MatchingAmountsAppend(a: seq<CostEntry>, b: seq<CostEntry>, itemTypeId: int)
    ensures MatchingAmounts(a + b, itemTypeId) == MatchingAmounts(a, itemTypeId) + MatchingAmounts(b, itemTypeId)
    decreases |a|
  {
    if |a| == 0 {
      assert a + b == b;
    } else {
      assert (a + b)[0] == a[0];
      assert (a + b)[1..] == a[1..] + b;
      MatchingAmountsAppend(a[1..], b, itemTypeId);
    }
  }

  /** A single entry yields one record exactly when it is for the item. */
  lemma MatchingAmountsSingle(c: CostEntry, itemTypeId: int)
    ensures MatchingAmounts([c], itemTypeId) == if c.id == itemTypeId then [c.amount] else []
  {
    assert [c][1..] == [];
  }

  /** A perk is a candidate when it is neither unlocked nor being unlocked and has a cost list. */
  predicate PerkKept(p: Perk) {
    !p.unlocked && !p.unlocking && p.cost.Some?
  }

  ghost predicate PerkYields(p: Perk, itemTypeId: int, e: RequiredPerk) {
    PerkKept(p) && e.perkName == p.displayName && CostEntry(itemTypeId, e.amount) in p.cost.value
  }

  /** One perk record per amount, in order. */
  function PerkRecordsOf(treeName: string, perkName: string, amounts: seq<int>): (r: seq<RequiredPerk>)
    ensures |r| == |amounts|
    ensures forall i :: 0 <= i < |r| ==> r[i] == RequiredPerk(amounts[i], treeName, perkName)
    ensures forall e :: e in r <==> e.perkTreeName == treeName && e.perkName == perkName && e.amount in amounts
    decreases |amounts|
  {
    if |amounts| == 0 then []
    else
      assert forall a :: a in amounts <==> a == amounts[0] || a in amounts[1..] by {
        assert amounts == [amounts[0]] + amounts[1..];
      }
      [RequiredPerk(amounts[0], treeName, perkName)] + PerkRecordsOf(treeName, perkName, amounts[1..])
  }

  /** The records of one tree's perks, in perk order. */
  function TreePerkRecords(treeName: string, perks: seq<Option<Perk>>, itemTypeId: int): (r: seq<RequiredPerk>)
    ensures forall e :: e in r <==> e.perkTreeName == treeName && exists p :: Some(p) in perks && PerkYields(p, itemTypeId, e)
    decreases |perks|
  {
    if |perks| == 0 then []
    else
      var rest := TreePerkRecords(treeName, perks[1..], itemTypeId);
      assert forall x :: x in perks <==> x == perks[0] || x in perks[1..] by {
        assert perks == [perks[0]] + perks[1..];
      }
      match perks[0]
      case None => rest
      case Some(p) =>
        if PerkKept(p) then PerkRecordsOf(treeName, p.displayName, MatchingAmounts(p.cost.value, itemTypeId)) + rest
        else rest
  }

  /** The records of a perk list are those of its parts, in order. */
  lemma {:induction false} TreePerkRecordsAppend(treeName: string, a: seq<Option<Perk>>, b: seq<Option<Perk>>, itemTypeId: int)
    ensures TreePerkRecords(treeName, a + b, itemTypeId)
      == TreePerkRecords(treeName, a, itemTypeId) + TreePerkRecords(treeName, b, itemTypeId)
    decreases |a|
  {
    if |a| == 0 {
      assert a + b == b;
    } else {
      assert (a + b)[0] == a[0];
      assert (a + b)[1..] == a[1..] + b;
      TreePerkRecordsAppend(treeName, a[1..], b, itemTypeId);
    }
  }

  /** A single perk yields one record per matching cost entry when it is a candidate, and none otherwise. */
  lemma TreePerkRecordsSingle(treeName: string, x: Option<Perk>, itemTypeId: int)
    ensures TreePerkRecords(treeName, [x], itemTypeId)
      == if x.Some? && PerkKept(x.value)
         then PerkRecordsOf(treeName, x.value.displayName, MatchingAmounts(x.value.cost.value, itemTypeId))
         else []
  {
    assert [x][1..] == [];
  }

  ghost predicate TreeYields(tree: PerkTree, itemTypeId: int, e: RequiredPerk) {
    tree.id !in ExcludedPerkTreeIds && e.perkTreeName == tree.displayName
      && exists p :: Some(p) in tree.perks && PerkYields(p, itemTypeId, e)
  }

  /** The records of all trees outside the denylist, in tree order. */
  function PerkPass(trees: seq<Option<PerkTree>>, itemTypeId: int): (r: seq<RequiredPerk>)
    ensures forall e :: e in r <==> exists tree :: Some(tree) in trees && TreeYields(tree, itemTypeId, e)
    decreases |trees|
  {
    if |trees| == 0 then []
    else
      var rest := PerkPass(trees[1..], itemTypeId);
      assert forall x :: x in trees <==> x == trees[0] || x in trees[1..] by {
        assert trees == [trees[0]] + trees[1..];
      }
      match trees[0]
      case None => rest
      case Some(tree) =>
        if tree.id in ExcludedPerkTreeIds then rest
        else TreePerkRecords(tree.displayName, tree.perks, itemTypeId) + rest
  }

  /** The records of a tree list are those of its parts, in order. */
  lemma {:induction false} PerkPassAppend(a: seq<Option<PerkTree>>, b: seq<Option<PerkTree>>, itemTypeId: int)
    ensures PerkPass(a + b, itemTypeId) == PerkPass(a, itemTypeId) + PerkPass(b, itemTypeId)
    decreases |a|
  {
    if |a| == 0 {
      assert a + b == b;
    } else {
      assert (a + b)[0] == a[0];
      assert (a + b)[1..] == a[1..] + b;
      PerkPassAppend(a[1..], b, itemTypeId);
    }
  }

  /** A single tree yields its perks' records unless it is missing or denylisted. */
  lemma PerkPassSingle(x: Option<PerkTree>, itemTypeId: int)
    ensures PerkPass([x], itemTypeId)
      == if x.Some? && x.value.id !in ExcludedPerkTreeIds
         then TreePerkRecords(x.value.displayName, x.value.perks, itemTypeId)
         else []
  {
    assert [x][1..] == [];
  }

  /** The perk list of an item: empty without a perk-tree manager. */
  function ComputePerks(st: GameState, itemTypeId: int): (r: seq<RequiredPerk>)
    ensures st.perkTrees.None? ==> r == []
    ensures forall e :: e in r <==> st.perkTrees.Some? && exists tree :: Some(tree) in st.perkTrees.value && TreeYields(tree, itemTypeId, e)
  {
    match st.perkTrees
    case None => []
    case Some(trees) => PerkPass(trees, itemTypeId)
  }

  /**
   A building is a candidate when it is valid, not placed yet, not a testing object, has a cost list,
   and its prerequisites (when it has any) name neither itself nor the pet house.
   */
  predicate BuildingKept(b: BuildingInfo) {
    && b.valid
    && b.currentAmount == 0
    && !IsTestingName(b.displayName)
    && !(b.requireBuildings.Some? && |b.requireBuildings.value| > 0
         && (b.id in b.requireBuildings.value || ExcludedBuildingId in b.requireBuildings.value))
    && b.cost.Some?
  }

  ghost predicate BuildingYields(b: BuildingInfo, itemTypeId: int, e: RequiredBuilding) {
    BuildingKept(b) && e.buildingName == b.displayName && CostEntry(itemTypeId, e.amount) in b.cost.value
  }

  /** One building record per amount, in order. */
  function BuildingRecordsOf(buildingName: string, amounts: seq<int>): (r: seq<RequiredBuilding>)
    ensures |r| == |amounts|
    ensures forall i :: 0 <= i < |r| ==> r[i] == RequiredBuilding(amounts[i], buildingName)
    ensures forall e :: e in r <==> e.buildingName == buildingName && e.amount in amounts
    decreases |amounts|
  {
    if |amounts| == 0 then []
    else
      assert forall a :: a in amounts <==> a == amounts[0] || a in amounts[1..] by {
        assert amounts == [amounts[0]] + amounts[1..];
      }
      [RequiredBuilding(amounts[0], buildingName)] + BuildingRecordsOf(buildingName, amounts[1..])
  }

  function BuildingPass(infos: seq<BuildingInfo>, itemTypeId: int): (r: seq<RequiredBuilding>)
    ensures forall e :: e in r <==> exists b :: b in infos && BuildingYields(b, itemTypeId, e)
    decreases |infos|
  {
    if |infos| == 0 then []
    else
      var rest := BuildingPass(infos[1..], itemTypeId);
      assert forall x :: x in infos <==> x == infos[0] || x in infos[1..] by {
        assert infos == [infos[0]] + infos[1..];
      }
      var b := infos[0];
      if BuildingKept(b) then
        var head := BuildingRecordsOf(b.displayName, MatchingAmounts(b.cost.value, itemTypeId));
        assert forall e :: e in head <==> BuildingYields(b, itemTypeId, e);
        head + rest
      else rest
  }

  /** The records of a building list are those of its parts, in order. */
  lemma {:induction false} BuildingPassAppend(a: seq<BuildingInfo>, b: seq<BuildingInfo>, itemTypeId: int)
    ensures BuildingPass(a + b, itemTypeId) == BuildingPass(a, itemTypeId) + BuildingPass(b, itemTypeId)
    decreases |a|
  {
    if |a| == 0 {
      assert a + b == b;
    } else {
      assert (a + b)[0] == a[0];
      assert (a + b)[1..] == a[1..] + b;
      BuildingPassAppend(a[1..], b, itemTypeId);
    }
  }

  /** A single building yields one record per matching cost entry when it is a candidate, and none otherwise. */
  lemma BuildingPassSingle(b: BuildingInfo, itemTypeId: int)
    ensures BuildingPass([b], itemTypeId)
      == if BuildingKept(b) then BuildingRecordsOf(b.displayName, MatchingAmounts(b.cost.value, itemTypeId)) else []
  {
    assert [b][1..] == [];
  }

  /** The building list of an item: empty without a building collection. */
  function ComputeBuildings(st: GameState, itemTypeId: int): (r: seq<RequiredBuilding>)
    ensures st.buildings.None? ==> r == []
    ensures forall e :: e in r <==> st.buildings.Some? && exists b :: b in st.buildings.value && BuildingYields(b, itemTypeId, e)
  {
    match st.buildings
    case None => []
    case Some(infos) => BuildingPass(infos, itemTypeId)
  }

  // ---------------------------------------------------------------- the snapshot

  /** The lists a missing cache entry reads as. */
  const EmptySnapshot: Snapshot := Snapshot([], [], [], [], [])

  /** Everything the index records about one item type, computed from one game state. */
  function BuildSnapshot(st: GameState, itemTypeId: int): (r: Snapshot)
    ensures IsSublist(r.prepared, st.totalQuests)
    ensures forall e :: e in r.submit ==> e.remaining > 0 && (e.task.Some? ==> e.task.value.SubmitItem?)
    ensures forall e :: e in r.use ==> e.remaining > 0 && (e.task.Some? ==> e.task.value.UseItem?)
    ensures st.perkTrees.None? ==> r.perks == []
    ensures st.buildings.None? ==> r.buildings == []
  {
    Snapshot(
      ComputePrepared(st.totalQuests, st.historyIds, itemTypeId),
      ComputeTaskRequirements(st, Submit, itemTypeId),
      ComputeTaskRequirements(st, Use, itemTypeId),
      ComputePerks(st, itemTypeId),
      ComputeBuildings(st, itemTypeId))
  }
}

=== FILE: seqs.dfy ===
/** Order-preserving sub-lists: what every filtering query in the index produces. */
module Seqs {

  /** `a` is obtained from `b` by deleting zero or more elements, keeping the order of the rest. */
  predicate IsSublist<T(==)>(a: seq<T>, b: seq<T>)
    decreases |b|
  {
    if |b| == 0 then |a| == 0
    else (|a| > 0 && a[0] == b[0] && IsSublist(a[1..], b[1..])) || IsSublist(a, b[1..])
  }

  lemma {:induction false} SublistRefl<T>(a: seq<T>)
    ensures IsSublist(a, a)
    decreases |a|
  {
    if |a| > 0 {
      SublistRefl(a[1..]);
    }
  }

  lemma {:induction false} SublistEmpty<T>(b: seq<T>)
    ensures IsSublist([], b)
    decreases |b|
  {
    if |b| > 0 {
      SublistEmpty(b[1..]);
    }
  }

  lemma {:induction false} SublistMembers<T>(a: seq<T>, b: seq<T>)
    requires IsSublist(a, b)
    ensures forall x :: x in a ==> x in b
    decreases |b|
  {
    if |b| > 0 {
      if |a| > 0 && a[0] == b[0] && IsSublist(a[1..], b[1..]) {
        SublistMembers(a[1..], b[1..]);
        assert a == [a[0]] + a[1..];
      } else {
        SublistMembers(a, b[1..]);
      }
    }
  }

  lemma {:induction false} SublistConcat<T>(a: seq<T>, b: seq<T>, c: seq<T>, d: seq<T>)
    requires IsSublist(a, b) && IsSublist(c, d)
    ensures IsSublist(a + c, b + d)
    decreases |b|
  {
    if |b| == 0 {
      assert a + c == c;
      assert b + d == d;
    } else {
      assert (b + d)[1..] == b[1..] + d;
      if |a| > 0 && a[0] == b[0] && IsSublist(a[1..], b[1..]) {
        SublistConcat(a[1..], b[1..], c, d);
        assert (a + c)[1..] == a[1..] + c;
      } else {
        SublistConcat(a, b[1..], c, d);
      }
    }
  }

  lemma {:induction false} SublistTrans<T>(a: seq<T>, b: seq<T>, c: seq<T>)
    requires IsSublist(a, b) && IsSublist(b, c)
    ensures IsSublist(a, c)
    decreases |c|
  {
    if |c| == 0 {
    } else if |b| > 0 && b[0] == c[0] && IsSublist(b[1..], c[1..]) {
      if |a| > 0 && a[0] == b[0] && IsSublist(a[1..], b[1..]) {
        SublistTrans(a[1..], b[1..], c[1..]);
      } else {
        SublistDropHead(a, b);
        SublistTrans(a, b[1..], c[1..]);
      }
    } else {
      SublistTrans(a, b, c[1..]);
    }
  }

  /** Deleting the head of the longer list keeps a sub-list that did not use that head. */
  lemma {:induction false} SublistDropHead<T>(a: seq<T>, b: seq<T>)
    requires |b| > 0 && IsSublist(a, b)
    requires !(|a| > 0 && a[0] == b[0] && IsSublist(a[1..], b[1..]))
    ensures IsSublist(a, b[1..])
  {
  }
}

=== FILE: wrappers.dfy ===
/** Option stands in for a reference that the host game may leave null. */
module Wrappers {

  datatype Option<+T> = None | Some(value: T) {

    /** The wrapped value, or `default` when there is none. */
    function GetOr(default: T): T {
      match this
      case Some(v) => v
      case None => default
    }
  }
}
